=== FILE: README.md ===
# Story app: a Dafny model of its core

The Story app is a Streamlit page. The user picks a genre, a length, a
topic, a main character and comma-separated keywords. One click of
"Generate Story" then does four things:

1. asks a hosted language model for a story and then a title;
2. optionally asks an image service for an illustration;
3. optionally asks a speech service for an audio reading;
4. exports the result as a text file and as a multi-page PDF.

This project models that core as pure functions over immutable data and
proves what each part promises.

- `Wrappers` (wrappers.dfy) holds `Option` and `Result`.
- `PyStr` (pystr.dfy) holds the Python `str` operations the core uses:
  - `strip()` over the `str.isspace` characters;
  - `split` on one character, which always yields at least one piece;
  - `join`;
  - single-character `replace`;
  - ASCII `lower()`;
  - slicing;
  - the truthiness of an optional string, where `None` and `""` are false.
- `Pagination` (pagination.dfy) is the PDF body's vertical cursor on a
  612x792-point Letter page. A cursor at or below 50 opens a new page at 742
  before a line is drawn, and each line lowers the cursor by 14.
- `Exporter` (exporter.dfy) is the story exporter. It builds the file stem
  from the title. It writes the text file. It decides where the PDF body
  starts from what happened to the illustration, and it writes the PDF
  through the cursor. Writes are returned as values: the path plus what the
  file holds.
- `StoryGen` (story.dfy) is the story generator. It parses the keywords,
  computes the `int(length * 1.5)` token budget, builds both prompts, and
  post-processes the two responses. A failed request or an empty story
  response gives `story_text = None`, and slicing it to build the title
  prompt raises. That crash is a `Failure` outcome.
- `ImageGen` (image.dfy) is the image generator. It checks for the
  credentials, builds the prompt and payload, and runs the two-attempt retry
  loop. Only an HTTP error is retried; any other error escapes the generator.
- `App` (app.dfy) is the page script:
  - the session keys set to `None` when missing, on every run;
  - the one-time `initialized` flag and clearing of temporary files;
  - the audio toggle, the length options and the input check;
  - the cleaning of the stored title;
  - the text, image, speech and PDF stages of one click.

  An exception ends the script run. The session keeps every assignment made
  before it, and a `Run` records the stages entered, the files written and
  whether the run crashed.

Services are parameters, not calls: the language model's two responses, the
image service's answer to each attempt, the speech file name, the PDF
exporter's download of the illustration, and the PDF library's line
wrapping.

## Model

| member | source | states |
|---|---|---|
| Exporter.Sanitize | Story-main/src/export_story.py:13 | The file stem has no space and no double quote, and is never longer than the title. |
| Exporter.SanitizeIgnoresSurroundingSpace | Story-main/src/export_story.py:13 | Whitespace added around a title never changes its stem, because the title is stripped before spaces become underscores. |
| Exporter.SanitizeFixedPoints | Story-main/src/export_story.py:13 | Sanitising leaves a stem unchanged exactly when the stem is stripped and has no space or double quote. |
| Exporter.SanitizeIdempotentIff | Story-main/src/export_story.py:13 | Sanitising twice equals sanitising once exactly when the first stem has no whitespace at either end. |
| Exporter.SanitizeNotAlwaysIdempotent | Story-main/src/export_story.py:13 | A leading double quote followed by a tab survives the first pass as `<TAB>x` and is stripped by a second pass, so sanitising is not idempotent. |
| Exporter.SanitizeQuotedWord | Story-main/src/export_story.py:13 | `A "Grand" Tale` becomes `A_Grand_Tale`: the spaces become underscores and the quotes are dropped. |
| Exporter.ExportPathInsideDirIff | Story-main/src/export_story.py:14 | The export path has the shape `output_stories/<stem><ext>` exactly when the stem does not start with `/`, because POSIX `os.path.join` lets an absolute stem replace the directory. The path is not resolved, so a stem like `../x` keeps that shape yet names a file outside the directory. |
| Exporter.SaveText | Story-main/src/export_story.py:11-19 | The text file goes to the `.txt` export path and holds the raw title, then `"\n\n"`, then the story. |
| Exporter.TextRoundTrip | Story-main/src/export_story.py:17 | Cutting the text file at its first blank line gives back the title and the story exactly when the title has no blank line inside and does not end in a line break. A title with a single inner line break still round-trips. |
| Exporter.BodyLinesAppend | Story-main/src/export_story.py:70-71 | Joining two stories with a line break concatenates their wrapped body lines, so the body keeps the text's order. |
| Exporter.BodyLinesOfParagraph | Story-main/src/export_story.py:70-71 | A story without a line break is wrapped as one paragraph to the text width of 512 points. |
| Exporter.BodyParagraphsCoverStory | Story-main/src/export_story.py:70 | The paragraphs the body is wrapped from, joined back with line breaks, give the story: splitting on line breaks drops no text. |
| Exporter.BodyLinesOfParagraphs | Story-main/src/export_story.py:70-71 | A story made of line-free paragraphs joined by line breaks is wrapped paragraph by paragraph, in order. |
| Exporter.BodyStart | Story-main/src/export_story.py:41-62 | The body starts at 442 exactly when a non-empty URL was downloaded with status 200 and the image was opened, saved and drawn; otherwise it starts at 712. |
| Exporter.ImageCopyWrite | Story-main/src/export_story.py:47-51 | The local `.jpg` copy is written exactly when the download succeeded with status 200 and the image was opened and saved, even if drawing it then fails. |
| Exporter.SavePdf | Story-main/src/export_story.py:21-83 | The PDF goes to the `.pdf` export path and carries the raw title. The illustration is shown exactly when it was placed. The body is the cursor layout of the wrapped lines from the body start, and the document ends on the cursor's final page. The files written are the image copy, when there is one, then the PDF. |
| Exporter.SavePdfBody | Story-main/src/export_story.py:64-82 | Every wrapped line is in the PDF body, in order, strictly above height 50 and no higher than 742. The page count is one more than the breaks the closed form predicts. |
| Exporter.PdfBodySteps | Story-main/src/export_story.py:55-78 | The first body line sits at the body start (442 or 712) on the title page. Each further line is 14 points below the previous one, or at 742 on a new page when the previous one left the cursor at or below 50. |
| Exporter.SharedStem | Story-main/src/export_story.py:13-14 | The text, PDF and image files of one title share one stem and differ only in their extension. |
| Pagination.LayOut | Story-main/src/export_story.py:70-78 | The cursor machine places one line per input line, never moves back to an earlier page, and ends one spacing below the last line drawn. |
| Pagination.LayOutPlacements | Story-main/src/export_story.py:73-78 | Each line is drawn in input order, strictly above height 50 and no higher than the start or the top of a fresh page, on a page between the first and the last. |
| Pagination.LayOutSteps | Story-main/src/export_story.py:31-34 | A new page at 742 starts exactly when the cursor after the previous line is at or below 50; otherwise the line is 14 points lower on the same page. |
| Pagination.NoEmptyPage | Story-main/src/export_story.py:74-77 | Every page opened by a break receives at least one line. |
| Pagination.BreaksClosedForm | Story-main/src/export_story.py:70-78 | The number of page breaks equals the breaks needed for the line count, given the room left below the starting cursor and 50 lines per fresh page. |
| Pagination.PageCountMonotone | Story-main/src/export_story.py:70-78 | Adding lines at the end of the body never lowers the page count. |
| Pagination.SecondPageIff | Story-main/src/export_story.py:74-75 | The PDF runs to a second page exactly when the body has more lines than fit below its start. |
| StoryGen.ParseKeywords | Story-main/src/story_generator.py:20 | Every parsed keyword is non-empty, stripped and free of commas. |
| StoryGen.ParseKeywordsAround | Story-main/src/story_generator.py:20 | Parsing distributes over a comma, so the keywords come out in input order. |
| StoryGen.ParseSingleKeyword | Story-main/src/story_generator.py:20 | Text without a comma is one stripped keyword, or no keyword when blank. |
| StoryGen.BlankPiecesParseEmpty | Story-main/src/story_generator.py:20 | Blank pieces on both sides of a comma yield no keyword at all. |
| StoryGen.ParseFormatRoundTrip | Story-main/src/story_generator.py:20-21 | Parsing the `", "`-joined keyword list again gives the same list. |
| StoryGen.TokenBudget | Story-main/src/story_generator.py:24 | The result is `length * 1.5` truncated toward zero, stated by bounds on both sides for either sign of the length. |
| StoryGen.TokenBudgetsOfLengthChoices | Story-main/src/story_generator.py:43 | The three length options get budgets of 300, 750 and 1050 tokens. |
| StoryGen.StoryText | Story-main/src/story_generator.py:44 | There is no story text exactly when the request failed or answered empty. Otherwise the text is the stripped response, and it is empty exactly when the response is all whitespace. |
| StoryGen.StoryTitle | Story-main/src/story_generator.py:54 | The title is the stripped response, or `Untitled Story` when there is no response or it is empty. |
| StoryGen.Excerpt | Story-main/src/story_generator.py:50 | `story[:500]` is the first 500 characters of a longer story, and the whole story otherwise. |
| StoryGen.StoryPrompt | Story-main/src/story_generator.py:26-40 | The story prompt quotes the genre, the length, the topic, the character and the formatted keywords. |
| StoryGen.TitlePrompt | Story-main/src/story_generator.py:47-51 | The title prompt quotes the genre and the story excerpt. |
| StoryGen.StoryOutcome | Story-main/src/story_generator.py:44-56 | The generator raises exactly when there is no story text. Otherwise it returns the title and the stripped story. |
| StoryGen.GenerateStory | Story-main/src/story_generator.py:20-56 | The story request carries the token budget and quotes the inputs. The title request is sent, with 15 tokens and the excerpt, only when story text came back, and the result is the generator's outcome. |
| ImageGen.ImagePrompt | Story-main/src/image_generator.py:22-25 | The image prompt holds the lower-cased genre, the topic between single quotes, and the raw keyword text. |
| ImageGen.Settle | Story-main/src/image_generator.py:35-42 | A response yields its own URL, an HTTP error on the last attempt yields `None`, and any other error escapes. |
| ImageGen.RetryFrom | Story-main/src/image_generator.py:33-42 | At most two attempts are made. Every attempt before the last one made failed with an HTTP error, the loop stops early only on another outcome, and the last attempt decides the result. |
| ImageGen.PostWithRetry | Story-main/src/image_generator.py:33-42 | The loop as written, one attempt per iteration, computes the same attempts and result as `RetryFrom`. |
| ImageGen.ImageOutcome | Story-main/src/image_generator.py:12-42 | Without both credentials the result is `None`. Otherwise an HTTP error on the first attempt is retried once and the second attempt decides; any other first outcome decides at once. |
| ImageGen.GenerateImage | Story-main/src/image_generator.py:10-42 | Without credentials nothing is sent. Otherwise the request goes to the endpoint with the key and a `dall-e-3`, `1024x1024` payload. It is sent twice after a first HTTP error and once otherwise, with the attempts and result of the retry loop. |
| ImageGen.ReturnedUrlWasAnswered | Story-main/src/image_generator.py:37 | A returned URL comes from an attempt actually made, and no other attempt made returned a response. |
| ImageGen.NoUrlIff | Story-main/src/image_generator.py:33-42 | The call returns `None` without raising exactly when every attempt made failed with an HTTP error or answered without a URL. |
| ImageGen.OtherErrorNotRetried | Story-main/src/image_generator.py:38 | A non-HTTP error on the first attempt escapes after that one attempt. |
| ImageGen.FirstAnswerEndsLoop | Story-main/src/image_generator.py:35-37 | A response to the first attempt ends the loop after one attempt and returns that response's URL. |
| ImageGen.HttpErrorsExhaust | Story-main/src/image_generator.py:33-42 | Two HTTP errors use up both attempts and give `None`. |
| App.StartRun | Story-main/app.py:17-28 | Temporary files are cleared exactly on the first run of a session. Every session key and `initialized` is present afterwards, and present keys keep their values. |
| App.FreshSession | Story-main/app.py:17-28 | A fresh session has every key `None` and `initialized` set. The `False` default for `play_audio` never applies. |
| App.RerunKeepsSession | Story-main/app.py:17-24 | A rerun of an initialised session changes nothing and clears no files. |
| App.StartRunIdempotent | Story-main/app.py:17-28 | Running the preamble twice is running it once, and files are cleared at most once. |
| App.ToggleAudio | Story-main/app.py:30-32 | `play_audio` becomes the boolean negation of its truthiness, and no other key changes. |
| App.ToggleTwice | Story-main/app.py:30-32 | Toggling twice restores a boolean flag, and turns the initial `None` into `False`. |
| App.WordCount | Story-main/app.py:39-41 | The small, medium and large options ask for 200, 500 and 700 words. |
| App.LengthOptionsOrdered | Story-main/app.py:39 | A longer option asks for more words and gets a larger token budget. |
| App.GeneratorCall | Story-main/app.py:59 | The click calls the story generator with the genre label, the option's word count, the topic, the character and the keywords. Its request carries that word count's token budget, and its prompt quotes the genre label, the topic, the character and the parsed keyword list. Its result is the outcome the text stage acts on. |
| App.ImageGeneratorCall | Story-main/app.py:77 | The click calls the image generator with the genre label, the topic and the raw keyword text. With credentials, its prompt holds the lower-cased genre label, the quoted topic and the keywords. Its result is the outcome the image stage acts on. |
| App.StoryBudgetOfChoice | Story-main/app.py:39-41 | A click's story request asks for 300, 750 or 1050 tokens for the small, medium and large option. |
| App.InputValid | Story-main/app.py:54 | A click is accepted exactly when neither the keyword text nor the topic is all whitespace. |
| App.CommaPassesValidation | Story-main/app.py:54 | A lone comma passes the check and yet parses to no keyword. |
| App.CleanTitle | Story-main/app.py:63 | The stored title has no double quote, is no longer than the title, and adds no characters. |
| App.CleanTitleFixedPoints | Story-main/app.py:63 | Cleaning leaves a title unchanged exactly when it is stripped and has no double quote. |
| App.StoryStep | Story-main/app.py:58-70 | The text stage raises exactly when there is no story text. It stores a non-blank story and its title together, touches only its own keys, and a blank story leaves session and files untouched. |
| App.StoryStepStores | Story-main/app.py:61-70 | For a story that arrives, the stage stores the stripped story, the cleaned title and both flags, and writes the text export under the cleaned title. |
| App.ImageUrlPersistsWithoutImage | Story-main/app.py:73-78 | Without the image option, a click leaves the stored image URL as it was. |
| App.ImageStep | Story-main/app.py:73-78 | The image stage runs only when asked for. It raises exactly when the generator lets an error escape, and then the session is left as it was. Otherwise it stores the returned URL, `None` included, and changes nothing else. |
| App.AudioWrites | Story-main/src/tts_generator.py:41-45 | The speech generator writes at most one file: the reading of the stored story, under exactly the path it returns, and nothing when it returns `None`. |
| App.SpeechStep | Story-main/app.py:81-84 | The speech stage runs only when asked for and stores the speech answer, `None` included. An audio path is stored exactly when one file is added to the writes, and that file is written under the stored path. Nothing else changes. |
| App.PdfStep | Story-main/app.py:87-89 | The PDF stage raises exactly when no title or no story is stored; with no title, nothing changes. Otherwise it stores the path named after the stored title. |
| App.PdfStepWrites | Story-main/app.py:87-89 | Files written by the PDF stage: the whole PDF export with title and story; only the image copy with a title but no story; nothing without a title. |
| App.Planned | Story-main/app.py:59-89 | The planned stages start with the text stage and end with the PDF stage, and include the image and speech stages exactly when they are asked for. |
| App.Click | Story-main/app.py:53-89 | A rejected click changes nothing. An accepted click enters a non-empty prefix of the planned stages, all of them unless one raises. It keeps the session well formed, keeps other keys, and keeps title and story paired. |
| App.ClickInOrder | Story-main/app.py:59-89 | The stages a click enters follow the script's order. |
| App.RejectedClickWritesNothing | Story-main/app.py:54-55 | A click with a blank topic or blank keywords writes nothing and changes nothing. |
| App.ClickExports | Story-main/app.py:58-89 | When the story arrives and the image stage, if asked for, does not raise, a click goes through every planned stage. It stores the stripped story, the cleaned title and the PDF's path. It writes the text export, then the audio file if one is made, then the PDF export with the image URL the image stage returned or the stored one. |
| App.BlankStoryExportsEarlierStory | Story-main/app.py:61-89 | Without the image stage, a whitespace-only story response stores nothing. The PDF stage then re-exports the earlier click's title, story and image URL under the earlier title. The only files written are the audio file, if the speech stage makes one, and that PDF export. |
| App.BlankStoryWithoutTitleFailsPdf | Story-main/app.py:61-89 | Without the image stage and with no stored title, a whitespace-only story response lets every planned stage run. The PDF stage raises, and the only file written is the audio file, if the speech stage makes one. |
| App.BlankFirstStoryFailsPdf | Story-main/app.py:17-89 | Without the image stage, on the first run of a session, a whitespace-only story response makes the PDF stage raise. The only file written is the audio file, if the speech stage makes one, and it holds the reading of no story. |
| App.PdfFailsIffNoStory | Story-main/app.py:61-89 | Without the image stage, with title and story paired, and when the story request returns text, a click fails in the PDF stage exactly when no story was stored, before or during the click. |

## Left out

- The service clients `azure_api.py` and `cleanup.py` are not part of this model, and of `tts_generator.py` only the audio file it writes is (`App.AudioWrites`). The services' answers are parameters of type `Environment`, and clearing the temporary files is a flag.
- App.AudioWrites: the audio file's path is the speech client's answer, so its `output_audio/story_<time>.mp3` form (tts_generator.py:41) is not modelled. Its content is the service's reading of the story, an `AudioReading` value and not bytes.
- `AzureOpenAI` construction and request errors are left out. A request that fails is a `None` response.
- What the page shows after a click is left out: the header, the markdown, `st.image`, the Read Aloud button and the audio player (app.py:93-114). The model keeps only the button's effect, `App.ToggleAudio`.
- The download button and its PDF regeneration after an open error are left out (app.py:117-128). They need the file system, which the model does not have.
- `simpleSplit` from the PDF library measures glyph widths in Helvetica 12. It is a `wrap` parameter, and the model only fixes that each paragraph is wrapped to a width of 512.
- Fonts, where the title is drawn, `drawImage`'s geometry and `save` are not modelled. The PDF is a `PdfDoc` value carrying the title, the placed image, the placements and the page count, which counts the `showPage` calls.
- The `requests.get` download, `PIL.Image.open`, `img.save` and `drawImage` are not modelled. What happened is the `ImageFetch` parameter: raised, or a status plus an `ImageHandling`.
- Every exception there is caught (export_story.py:58), so what happened changes only the body start and whether the image copy was written.
- The image service's response body is not parsed. These cases escape as the source's exceptions do, and are `OtherFailed`:
  - a `.json()` failure;
  - a body that is not a JSON object;
  - an empty `data` list.

  A response whose first `data` entry has no `url`, or which has no `data` key at all (the `[{}]` default applies), is `Answered(None)`.
- ImageGen.ImageOutcome: states the credentials guard and the retry outcome. It requires at least two attempt outcomes, whether or not the call uses them, because the service's answer to every attempt it could make is an input.
- App.StoryStep: the text export is taken to succeed. A stem with an inner `/`, such as `Love/Hate`, names a missing sub-directory, and `open()` at export_story.py:16 would raise after app.py:63-66 have stored the story. The file system is not part of this model.
- App.PdfStep: the PDF and image writes are taken to succeed, for the same reason. A failing `img.save` is covered by `SaveFailed`, which the exporter catches. A failing `c.save()` at export_story.py:82 is not covered.
- `time.sleep(1)` and every `print` are left out.
- `genre.lower()` is modelled for ASCII letters only. The five genre labels are ASCII.
- `length * 1.5` is a float in the source. It is modelled exactly: `int()` truncates toward zero, and for every integer below 2^51 the product is exact in a double, so this covers every length the page can produce.
- App.SpeechStep: the speech stage never raises, and its answer is a parameter. The write of the audio file is taken to succeed, although an `open()` failure at tts_generator.py:42 is not a `RequestException` and would escape. What `generate_speech` does with a `None` story is not part of this model.
- `os.makedirs` at start-up and in the exporter, and `st.set_page_config`, are left out. So are the inputs' default texts, since the inputs are parameters.
- Encodings are left out. Strings are sequences of characters, and the text file is modelled before its UTF-8 encoding.

## Notes on the source's behaviour

These are behaviours the source has as written. The proofs make them
explicit; they are not claimed as bugs.

- Sanitising a title is not idempotent (`Exporter.SanitizeNotAlwaysIdempotent`).
- A stem that starts with `/` replaces the export directory (`Exporter.ExportPathInsideDirIff`). A stem with `..` as a whole path component, such as `../x` or `a/../../x`, keeps the path's shape yet names a file outside the directory once the path is resolved; a stem like `a..b` stays inside.
- Input validation looks at the raw keyword text, so `","` is accepted and yields an empty keyword list (`App.CommaPassesValidation`).
- A story response that is only whitespace does not stop the click:
  - with an earlier story in the session, the PDF stage exports that story (`App.BlankStoryExportsEarlierStory`);
  - on a first run without the image stage, the PDF stage raises (`App.BlankFirstStoryFailsPdf`).
- The `play_audio = False` default at app.py:27-28 never applies, because the loop before it has already set the key to `None` (`App.FreshSession`).

=== FILE: app.dfy ===
/**
 * The page script: the session state it keeps across reruns, the audio
 * toggle, and what one click of "Generate Story" does to the session and to
 * the files on disk. The generators' services are inputs collected in an
 * `Environment`. An exception that escapes a stage ends the script run, and
 * the session keeps every assignment made before it.
 */
module App {
  import opened Wrappers
  import opened PyStr
  import StoryGen
  import ImageGen
  import Exporter

  /** A session-state value as the script stores it. */
  datatype Value = PyNone | PyBool(flag: bool) | PyText(text: string)

  /** The session-state keys the script uses (`initialized`, `story`,
      `title`, `image_url`, `pdf_path`, `audio_file`, `story_generated`,
      `play_audio`); any other key a session may hold is `Other`. */
  datatype Key =
    | InitializedKey | StoryKey | TitleKey | ImageUrlKey | PdfPathKey
    | AudioFileKey | StoryGeneratedKey | PlayAudioKey | Other(name: string)

  type State = map<Key, Value>

  /** The keys set to `None` when missing, in the order the script visits them. */
  const SessionKeys: seq<Key> :=
    [StoryKey, TitleKey, ImageUrlKey, PdfPathKey, AudioFileKey, StoryGeneratedKey, PlayAudioKey]

  /** The keys of the script's own state apart from `initialized`. */
  predicate IsSessionKey(k: Key) {
    !k.InitializedKey? && !k.Other?
  }

  lemma SessionKeysListed()
    ensures forall k :: k in SessionKeys <==> IsSessionKey(k)
  {
  }

  /** Python truthiness of a stored value: `None`, `False` and `""` are false. */
  predicate TruthyValue(v: Value) {
    v == PyBool(true) || (v.PyText? && v.text != "")
  }

  function ValueOf(s: Option<string>): Value {
    match s
    case None => PyNone
    case Some(t) => PyText(t)
  }

  function TextOf(v: Value): Option<string> {
    if v.PyText? then Some(v.text) else None
  }

  predicate TextValue(v: Value) {
    v.PyNone? || v.PyText?
  }

  predicate FlagValue(v: Value) {
    v.PyNone? || v.PyBool?
  }

  /** Every session key is present and holds a value of its kind. */
  predicate WellFormed(s: State) {
    && StoryKey in s && TitleKey in s && ImageUrlKey in s && PdfPathKey in s
    && AudioFileKey in s && StoryGeneratedKey in s && PlayAudioKey in s
    && TextValue(s[StoryKey]) && TextValue(s[TitleKey]) && TextValue(s[ImageUrlKey])
    && TextValue(s[PdfPathKey]) && TextValue(s[AudioFileKey])
    && FlagValue(s[StoryGeneratedKey]) && FlagValue(s[PlayAudioKey])
  }

  /** A title is stored exactly when a story is: the two are only ever set
      together. */
  predicate StoryPaired(s: State) {
    TitleKey in s && StoryKey in s && (s[TitleKey].PyText? <==> s[StoryKey].PyText?)
  }

  // ---------------------------------------------------------------------
  // Start of every script run

  /** Sets each of `keys` that is missing to `None`; present keys keep
      their values. */
  function AddMissing(state: State, keys: seq<Key>): (r: State)
    ensures forall k :: k in r <==> k in state || k in keys
    ensures forall k :: k in r ==> r[k] == if k in state then state[k] else PyNone
    decreases |keys|
  {
    if |keys| == 0 then state
    else AddMissing(if keys[0] in state then state else state[keys[0] := PyNone], keys[1..])
  }

  lemma {:induction false} AddMissingPresent(state: State, keys: seq<Key>)
    requires forall k :: k in keys ==> k in state
    ensures AddMissing(state, keys) == state
    decreases |keys|
  {
    if |keys| > 0 {
      AddMissingPresent(state, keys[1..]);
    }
  }

  /** The state after the script's preamble, and whether the temporary
      files were cleared. */
  datatype Startup = Startup(state: State, clearedTempFiles: bool)

  /** The preamble of a script run: the first run of a session sets the
      `initialized` flag and clears the temporary files, then every missing
      session key is set to `None`, and `play_audio` is defaulted to `False`
      when still missing. */
  function StartRun(state: State): (r: Startup)
    ensures r.clearedTempFiles <==> InitializedKey !in state
    ensures forall k :: k in r.state <==> k in state || k == InitializedKey || IsSessionKey(k)
    ensures forall k :: k in r.state ==>
      r.state[k] == if k in state then state[k] else if k == InitializedKey then PyBool(true) else PyNone
  {
    var marked := if InitializedKey in state then state else state[InitializedKey := PyBool(true)];
    assert forall k :: k in marked <==> k in state || k == InitializedKey;
    assert forall k :: k in marked ==> marked[k] == if k in state then state[k] else PyBool(true);
    SessionKeysListed();
    var filled := AddMissing(marked, SessionKeys);
    assert PlayAudioKey in filled;
    var defaulted := if PlayAudioKey in filled then filled else filled[PlayAudioKey := PyBool(false)];
    assert defaulted == filled;
    Startup(defaulted, InitializedKey !in state)
  }

  /** The first run of a session: everything is `None` (the `False`
      default for `play_audio` never applies, the loop before it has already
      set the key), and the title and story are paired. */
  lemma FreshSession()
    ensures var s := StartRun(map[]).state;
      && WellFormed(s) && StoryPaired(s)
      && s[InitializedKey] == PyBool(true)
      && (forall k :: IsSessionKey(k) ==> s[k] == PyNone)
      && StartRun(map[]).clearedTempFiles
  {
  }

  /** Once `initialized` and every session key are present, the preamble
      changes nothing and clears no files. */
  lemma StartRunComplete(state: State)
    requires InitializedKey in state
    requires forall k :: IsSessionKey(k) ==> k in state
    ensures StartRun(state) == Startup(state, false)
  {
    var r := StartRun(state);
    assert forall k :: k in r.state <==> k in state;
    assert forall k :: k in r.state ==> r.state[k] == state[k];
    assert r.state == state;
  }

  /** A rerun of an initialised session changes nothing and clears no files. */
  lemma RerunKeepsSession(state: State)
    requires InitializedKey in state && WellFormed(state)
    ensures StartRun(state) == Startup(state, false)
  {
    StartRunComplete(state);
  }

  /** The preamble is idempotent: running it twice is running it once, and
      the files are cleared at most once. */
  lemma StartRunIdempotent(state: State)
    ensures StartRun(StartRun(state).state) == Startup(StartRun(state).state, false)
  {
    StartRunComplete(StartRun(state).state);
  }

  // ---------------------------------------------------------------------
  // Audio toggle

  /** Flips `play_audio` to the boolean negation of its truthiness; no other
      key changes. */
  function ToggleAudio(s: State): (r: State)
    requires PlayAudioKey in s
    ensures r.Keys == s.Keys
    ensures r[PlayAudioKey].PyBool? && (TruthyValue(r[PlayAudioKey]) <==> !TruthyValue(s[PlayAudioKey]))
    ensures forall k :: k in s && k != PlayAudioKey ==> r[k] == s[k]
    ensures WellFormed(s) ==> WellFormed(r) && (StoryPaired(s) <==> StoryPaired(r))
  {
    s[PlayAudioKey := PyBool(!TruthyValue(s[PlayAudioKey]))]
  }

  /** Toggling twice restores a boolean flag, and turns the initial `None`
      into `False`. */
  lemma ToggleTwice(s: State)
    requires PlayAudioKey in s
    ensures s[PlayAudioKey].PyBool? ==> ToggleAudio(ToggleAudio(s)) == s
    ensures s[PlayAudioKey].PyNone? ==> ToggleAudio(ToggleAudio(s)) == s[PlayAudioKey := PyBool(false)]
  {
    var t := ToggleAudio(ToggleAudio(s));
    if s[PlayAudioKey].PyBool? {
      assert t[PlayAudioKey] == s[PlayAudioKey];
      assert forall k :: k in t <==> k in s;
    }
  }

  // ---------------------------------------------------------------------
  // Sidebar inputs

  datatype Genre = Fantasy | SciFi | Mystery | Romance | Horror

  function GenreLabel(g: Genre): string {
    match g
    case Fantasy => "Fantasy"
    case SciFi => "Sci-Fi"
    case Mystery => "Mystery"
    case Romance => "Romance"
    case Horror => "Horror"
  }

  datatype LengthChoice = Small | Medium | Large

  /** The target word count of each length option. */
  function WordCount(c: LengthChoice): (n: int)
    ensures n > 0 && n % 100 == 0
    ensures c == Small ==> n == 200
    ensures c == Medium ==> n == 500
    ensures c == Large ==> n == 700
  {
    match c
    case Small => 200
    case Medium => 500
    case Large => 700
  }

  function LengthRank(c: LengthChoice): nat {
    match c
    case Small => 0
    case Medium => 1
    case Large => 2
  }

  /** A longer option asks for more words and grants a larger token
      budget. */
  lemma LengthOptionsOrdered(a: LengthChoice, b: LengthChoice)
    requires LengthRank(a) < LengthRank(b)
    ensures WordCount(a) < WordCount(b)
    ensures StoryGen.TokenBudget(WordCount(a)) < StoryGen.TokenBudget(WordCount(b))
  {
    StoryGen.TokenBudgetsOfLengthChoices();
  }

  datatype Inputs = Inputs(genre: Genre, length: LengthChoice, topic: string, character: string,
                           keywords: string, wantImage: bool, wantSpeech: bool)

  /** The click is accepted exactly when the keyword text and the topic
      each hold a character that is not whitespace. */
  function InputValid(topic: string, keywords: string): (ok: bool)
    ensures ok <==> !AllSpace(keywords) && !AllSpace(topic)
  {
    StripEmptyIff(keywords);
    StripEmptyIff(topic);
    Strip(keywords) != "" && Strip(topic) != ""
  }

  /** The check is on the raw text, not on the parsed keyword list: a lone
      comma passes it and yet yields no keyword. */
  lemma CommaPassesValidation(topic: string)
    requires !AllSpace(topic)
    ensures InputValid(topic, ",") && StoryGen.ParseKeywords(",") == []
  {
    assert !IsSpace(',');
    assert "," == "" + "," + "";
    StoryGen.BlankPiecesParseEmpty("", "");
  }

  /** The stored title: stripped once more, double quotes removed. */
  function CleanTitle(t: string): (c: string)
    ensures '"' !in c && |c| <= |t|
    ensures forall x :: x in c ==> x in t
  {
    var s := Strip(t);
    forall x | x in RemoveChar(s, '"')
      ensures x in t
    {
      RemoveCharKeeps(s, '"', x);
      StripKeepsCharacters(t, x);
    }
    RemoveChar(s, '"')
  }

  /** Cleaning leaves a title alone exactly when it is already stripped
      and holds no double quote. */
  lemma CleanTitleFixedPoints(t: string)
    ensures CleanTitle(t) == t <==> IsStripped(t) && '"' !in t
  {
    StripFixedIff(t);
    if IsStripped(t) && '"' !in t {
      StripOfStripped(t);
    }
  }

  // ---------------------------------------------------------------------
  // One click of "Generate Story"

  /** What the services answer during one click. `wrap` is the PDF
      library's line wrapping. */
  datatype Environment = Environment(
    storyResponse: Option<string>,
    titleResponse: Option<string>,
    imageCredentials: ImageGen.Credentials,
    imageOutcomes: seq<ImageGen.Attempt>,
    speech: Option<string>,
    pdfImageFetch: Exporter.ImageFetch,
    wrap: (string, int) -> seq<string>)

  predicate EnvironmentComplete(env: Environment) {
    ImageGen.MaxAttempts <= |env.imageOutcomes|
  }

  datatype Stage = StoryStage | ImageStage | SpeechStage | PdfStage

  function StageRank(st: Stage): nat {
    match st
    case StoryStage => 0
    case ImageStage => 1
    case SpeechStage => 2
    case PdfStage => 3
  }

  /** The state of a script run: the session, the files written in order
      (the text export, the audio file, the image copy and the PDF), the
      stages entered in order, and whether an exception escaped (in the
      last stage entered). */
  datatype Run = Run(state: State, writes: seq<Exporter.FileWrite>, stages: seq<Stage>, crashed: bool)

  /** The story generator's call for a click: the genre's label, the
      option's word count and the text inputs as typed. Its result is the
      outcome the text stage acts on. */
  function GeneratorCall(input: Inputs, env: Environment): (c: StoryGen.StoryCall)
    ensures c.result == StoryGen.StoryOutcome(env.storyResponse, env.titleResponse)
    ensures c.storyRequest.maxTokens == StoryGen.TokenBudget(WordCount(input.length))
    ensures var p := c.storyRequest.prompt;
      && Contains(p, GenreLabel(input.genre)) && Contains(p, input.topic) && Contains(p, input.character)
      && Contains(p, StoryGen.FormatKeywords(StoryGen.ParseKeywords(input.keywords)))
  {
    StoryGen.GenerateStory(GenreLabel(input.genre), WordCount(input.length), input.topic, input.character,
                           input.keywords, env.storyResponse, env.titleResponse)
  }

  /** The image generator's call for a click: the genre's label, the topic
      and the raw keyword text. Its result is the outcome the image stage
      acts on. */
  function ImageGeneratorCall(input: Inputs, env: Environment): (c: ImageGen.ImageCall)
    requires EnvironmentComplete(env)
    ensures c.result == ImageGen.ImageOutcome(env.imageCredentials, env.imageOutcomes)
    ensures ImageGen.HasCredentials(env.imageCredentials) ==>
      && c.request.Some?
      && var p := c.request.value.payload.prompt;
      && Contains(p, LowerAscii(GenreLabel(input.genre))) && Contains(p, ImageGen.Quoted(input.topic))
      && Contains(p, input.keywords)
  {
    ImageGen.GenerateImage(env.imageCredentials, GenreLabel(input.genre), input.topic, input.keywords, env.imageOutcomes)
  }

  /** The story request of a click asks for 300, 750 or 1050 tokens for the
      small, medium and large option. */
  lemma StoryBudgetOfChoice(input: Inputs, env: Environment)
    ensures GeneratorCall(input, env).storyRequest.maxTokens ==
      match input.length
      case Small => 300
      case Medium => 750
      case Large => 1050
  {
    StoryGen.TokenBudgetsOfLengthChoices();
  }

  /** Story text came back that is not blank once stripped. */
  predicate StoryArrived(response: Option<string>) {
    response.Some? && !AllSpace(response.value)
  }

  function StoredTitle(env: Environment): string {
    CleanTitle(StoryGen.StoryTitle(env.titleResponse))
  }

  /** The keys the text stage assigns. */
  predicate StoryStageKey(k: Key) {
    k.TitleKey? || k.StoryKey? || k.StoryGeneratedKey? || k.PlayAudioKey?
  }

  /** The session after a story is stored with its title. */
  function StoreStory(state: State, title: string, story: string): (s: State)
    requires WellFormed(state)
    ensures WellFormed(s) && s.Keys == state.Keys && StoryPaired(s)
    ensures s[TitleKey] == PyText(title) && s[StoryKey] == PyText(story)
    ensures s[StoryGeneratedKey] == PyBool(true) && s[PlayAudioKey] == PyBool(false)
    ensures forall k :: k in state && !StoryStageKey(k) ==> s[k] == state[k]
  {
    state[TitleKey := PyText(title)][StoryKey := PyText(story)]
         [StoryGeneratedKey := PyBool(true)][PlayAudioKey := PyBool(false)]
  }

  /** The text stage: generate title and story; a non-blank story is stored
      with its title, the flags are set, and the text export is written. */
  function StoryStep(run: Run, input: Inputs, env: Environment): (r: Run)
    requires WellFormed(run.state) && !run.crashed
    ensures r.stages == run.stages + [StoryStage]
    ensures r.crashed <==> !Truthy(env.storyResponse)
    ensures WellFormed(r.state) && r.state.Keys == run.state.Keys
    ensures forall k :: k in run.state && !StoryStageKey(k) ==> r.state[k] == run.state[k]
    ensures StoryArrived(env.storyResponse) ==> r.state[StoryKey].PyText? && r.state[TitleKey].PyText?
    ensures !StoryArrived(env.storyResponse) ==> r.state == run.state && r.writes == run.writes
    ensures StoryPaired(run.state) ==> StoryPaired(r.state)
  {
    // The generator is called as in `GeneratorCall`; what it returns
    // depends on the responses only.
    var stages := run.stages + [StoryStage];
    match StoryGen.StoryOutcome(env.storyResponse, env.titleResponse)
    case Failure(_) => Run(run.state, run.writes, stages, true)
    case Success(pair) =>
      StripEmptyIff(env.storyResponse.value);
      if pair.story == "" then Run(run.state, run.writes, stages, false)
      else
        var title := CleanTitle(pair.title);
        Run(StoreStory(run.state, title, pair.story), run.writes + [Exporter.SaveText(title, pair.story)], stages, false)
  }

  /** What the text stage stores and writes when a story arrives: the
      stripped story, the cleaned title, both flags, and the text export
      under the cleaned title. */
  lemma StoryStepStores(run: Run, input: Inputs, env: Environment)
    requires WellFormed(run.state) && !run.crashed
    requires StoryArrived(env.storyResponse)
    ensures var r := StoryStep(run, input, env);
      && r.state[StoryKey] == PyText(Strip(env.storyResponse.value))
      && r.state[TitleKey] == PyText(StoredTitle(env))
      && r.state[StoryGeneratedKey] == PyBool(true)
      && r.state[PlayAudioKey] == PyBool(false)
      && r.writes == run.writes + [Exporter.SaveText(StoredTitle(env), Strip(env.storyResponse.value))]
  {
    StripEmptyIff(env.storyResponse.value);
  }

  /** The image stage, when asked for: the returned URL, `None` included,
      replaces the stored one; an error that escapes the generator ends the
      run. */
  function ImageStep(run: Run, input: Inputs, env: Environment): (r: Run)
    requires WellFormed(run.state) && !run.crashed && EnvironmentComplete(env)
    ensures !input.wantImage ==> r == run
    ensures r.stages == run.stages + Optional(input.wantImage, ImageStage)
    ensures r.writes == run.writes
    ensures WellFormed(r.state) && r.state.Keys == run.state.Keys
    ensures forall k :: k in run.state && k != ImageUrlKey ==> r.state[k] == run.state[k]
    ensures r.crashed ==> r.state == run.state
    ensures input.wantImage ==>
      var result := ImageGen.ImageOutcome(env.imageCredentials, env.imageOutcomes);
      && (r.crashed <==> result.Escaped?)
      && (result.Returned? ==> r.state[ImageUrlKey] == ValueOf(result.url))
    ensures StoryPaired(run.state) ==> StoryPaired(r.state)
  {
    if !input.wantImage then run
    else
      // The generator is called as in `ImageGeneratorCall`; what it returns
      // depends on the credentials and the attempts' outcomes only.
      var stages := run.stages + [ImageStage];
      match ImageGen.ImageOutcome(env.imageCredentials, env.imageOutcomes)
      case Escaped => Run(run.state, run.writes, stages, true)
      case Returned(url) => Run(run.state[ImageUrlKey := ValueOf(url)], run.writes, stages, false)
  }

  /** The audio file the speech generator writes when asked to read the
      stored story: it saves the reading under the path it then returns, and
      writes nothing when it returns `None`. */
  function AudioWrites(story: Value, input: Inputs, env: Environment): (w: seq<Exporter.FileWrite>)
    ensures |w| <= 1
    ensures |w| == 1 <==> input.wantSpeech && env.speech.Some?
    ensures |w| == 1 ==> w[0].path == env.speech.value && w[0].content == Exporter.AudioReading(TextOf(story))
  {
    if input.wantSpeech && env.speech.Some? then [Exporter.FileWrite(env.speech.value, Exporter.AudioReading(TextOf(story)))]
    else []
  }

  /** The speech stage, when asked for: the generator's answer, `None`
      included, replaces the stored audio file, and the audio file it names
      is the one written. */
  function SpeechStep(run: Run, input: Inputs, env: Environment): (r: Run)
    requires WellFormed(run.state) && !run.crashed
    ensures !input.wantSpeech ==> r == run
    ensures !r.crashed && r.writes == run.writes + AudioWrites(run.state[StoryKey], input, env)
    ensures WellFormed(r.state) && r.state.Keys == run.state.Keys
    ensures forall k :: k in run.state && k != AudioFileKey ==> r.state[k] == run.state[k]
    ensures r.stages == run.stages + Optional(input.wantSpeech, SpeechStage)
    ensures input.wantSpeech ==> r.state[AudioFileKey] == ValueOf(env.speech)
    ensures input.wantSpeech ==>
      (r.state[AudioFileKey].PyText? <==> |r.writes| == |run.writes| + 1)
      && (r.state[AudioFileKey].PyText? ==> r.writes[|run.writes|].path == r.state[AudioFileKey].text)
    ensures StoryPaired(run.state) ==> StoryPaired(r.state)
  {
    if !input.wantSpeech then run
    else
      Run(run.state[AudioFileKey := ValueOf(env.speech)], run.writes + AudioWrites(run.state[StoryKey], input, env),
          run.stages + [SpeechStage], false)
  }

  /** The PDF stage, from whatever title, story and image URL the session
      holds. With no title the export fails at once; with a title but no
      story it fails after the illustration may have been copied;
      otherwise the PDF is written and its path stored. */
  function PdfStep(run: Run, env: Environment): (r: Run)
    requires WellFormed(run.state) && !run.crashed
    ensures r.stages == run.stages + [PdfStage]
    ensures r.crashed <==> run.state[TitleKey].PyNone? || run.state[StoryKey].PyNone?
    ensures WellFormed(r.state) && r.state.Keys == run.state.Keys
    ensures forall k :: k in run.state && k != PdfPathKey ==> r.state[k] == run.state[k]
    ensures run.state[TitleKey].PyNone? ==> r.state == run.state && r.writes == run.writes
    ensures !r.crashed ==> r.state[PdfPathKey] == PyText(Exporter.ExportPath(run.state[TitleKey].text, ".pdf"))
    ensures StoryPaired(run.state) ==> StoryPaired(r.state)
  {
    var stages := run.stages + [PdfStage];
    if run.state[TitleKey].PyText? then
      var title := run.state[TitleKey].text;
      var url := TextOf(run.state[ImageUrlKey]);
      if run.state[StoryKey].PyText? then
        var e := Exporter.SavePdf(title, run.state[StoryKey].text, url, env.pdfImageFetch, env.wrap);
        Run(run.state[PdfPathKey := PyText(e.path)], run.writes + e.writes, stages, false)
      else
        var copy := Exporter.ImageCopyWrite(title, url, env.pdfImageFetch);
        Run(run.state, run.writes + (if copy.Some? then [copy.value] else []), stages, true)
    else Run(run.state, run.writes, stages, true)
  }

  /** The files the PDF stage writes: the PDF export's files, in order,
      when both title and story are stored; the illustration copy alone
      when only the title is; nothing without a title. */
  lemma PdfStepWrites(run: Run, env: Environment)
    requires WellFormed(run.state) && !run.crashed
    ensures var r := PdfStep(run, env);
      var title := run.state[TitleKey];
      var url := TextOf(run.state[ImageUrlKey]);
      && (!r.crashed ==> r.state[PdfPathKey] == PyText(Exporter.ExportPath(title.text, ".pdf")))
      && (title.PyText? && run.state[StoryKey].PyText? ==>
          r.writes == run.writes + Exporter.SavePdf(title.text, run.state[StoryKey].text, url, env.pdfImageFetch, env.wrap).writes)
      && (title.PyText? && run.state[StoryKey].PyNone? ==>
          r.writes == run.writes + match Exporter.ImageCopyWrite(title.text, url, env.pdfImageFetch)
                                   case Some(w) => [w]
                                   case None => [])
      && (title.PyNone? ==> r.writes == run.writes)
  {
  }

  /** The stages entered, in the script's order. */
  predicate InOrder(stages: seq<Stage>) {
    forall i, j :: 0 <= i < j < |stages| ==> StageRank(stages[i]) < StageRank(stages[j])
  }

  /** A stage that runs only when asked for. */
  function Optional(wanted: bool, st: Stage): seq<Stage> {
    if wanted then [st] else []
  }

  /** The stages after the image stage. */
  function FinalStages(input: Inputs): seq<Stage> {
    Optional(input.wantSpeech, SpeechStage) + [PdfStage]
  }

  /** The stages after the text stage. */
  function LaterStages(input: Inputs): seq<Stage> {
    Optional(input.wantImage, ImageStage) + FinalStages(input)
  }

  /** The stages an accepted click means to go through. */
  function Planned(input: Inputs): (p: seq<Stage>)
    ensures |p| >= 2 && p[0] == StoryStage && p[|p| - 1] == PdfStage
    ensures ImageStage in p <==> input.wantImage
    ensures SpeechStage in p <==> input.wantSpeech
  {
    [StoryStage] + LaterStages(input)
  }

  /** The speech and PDF stages, once the image stage has not raised. */
  function AfterImage(drawn: Run, input: Inputs, env: Environment): (r: Run)
    requires WellFormed(drawn.state) && !drawn.crashed
    ensures r.stages == drawn.stages + FinalStages(input)
    ensures WellFormed(r.state) && r.state.Keys == drawn.state.Keys
    ensures forall k :: k in drawn.state && !IsSessionKey(k) ==> r.state[k] == drawn.state[k]
    ensures StoryPaired(drawn.state) ==> StoryPaired(r.state)
  {
    SpeechPdfStages(drawn, input, env);
    SpeechPdfState(drawn, input, env);
    SpeechPdfFrame(drawn, input, env);
    PdfStep(SpeechStep(drawn, input, env), env)
  }

  lemma SpeechPdfStages(drawn: Run, input: Inputs, env: Environment)
    requires WellFormed(drawn.state) && !drawn.crashed
    ensures PdfStep(SpeechStep(drawn, input, env), env).stages == drawn.stages + FinalStages(input)
  {
    Assoc(drawn.stages, Optional(input.wantSpeech, SpeechStage), [PdfStage]);
  }

  lemma SpeechPdfState(drawn: Run, input: Inputs, env: Environment)
    requires WellFormed(drawn.state) && !drawn.crashed
    ensures var r := PdfStep(SpeechStep(drawn, input, env), env);
      WellFormed(r.state) && r.state.Keys == drawn.state.Keys && (StoryPaired(drawn.state) ==> StoryPaired(r.state))
  {
  }

  lemma SpeechPdfFrame(drawn: Run, input: Inputs, env: Environment)
    requires WellFormed(drawn.state) && !drawn.crashed
    ensures forall k :: k in drawn.state && !IsSessionKey(k) ==>
      PdfStep(SpeechStep(drawn, input, env), env).state[k] == drawn.state[k]
  {
    var spoken := SpeechStep(drawn, input, env);
    assert forall k :: k in drawn.state && !IsSessionKey(k) ==> spoken.state[k] == drawn.state[k];
  }

  /** After the image stage, the export fails exactly when no title or no
      story is stored; without a title only the audio file, if any, is
      written, and a successful export stores the path named after the
      stored title and writes the PDF export after the audio file. */
  lemma AfterImageOutcome(drawn: Run, input: Inputs, env: Environment)
    requires WellFormed(drawn.state) && !drawn.crashed
    ensures var r := AfterImage(drawn, input, env);
      && r.state[TitleKey] == drawn.state[TitleKey] && r.state[StoryKey] == drawn.state[StoryKey]
      && r.state[ImageUrlKey] == drawn.state[ImageUrlKey]
      && (r.crashed <==> drawn.state[TitleKey].PyNone? || drawn.state[StoryKey].PyNone?)
      && (drawn.state[TitleKey].PyNone? ==> r.writes == drawn.writes + AudioWrites(drawn.state[StoryKey], input, env))
      && (!r.crashed ==> r.state[PdfPathKey] == PyText(Exporter.ExportPath(drawn.state[TitleKey].text, ".pdf")))
      && (drawn.state[TitleKey].PyText? && drawn.state[StoryKey].PyText? ==>
            r.writes == drawn.writes + AudioWrites(drawn.state[StoryKey], input, env) + Exporter.SavePdf(drawn.state[TitleKey].text, drawn.state[StoryKey].text,
                                                        TextOf(drawn.state[ImageUrlKey]), env.pdfImageFetch, env.wrap).writes)
  {
    var spoken := SpeechStep(drawn, input, env);
    assert spoken.state[TitleKey] == drawn.state[TitleKey] && spoken.state[StoryKey] == drawn.state[StoryKey];
    assert spoken.state[ImageUrlKey] == drawn.state[ImageUrlKey];
    assert spoken.writes == drawn.writes + AudioWrites(drawn.state[StoryKey], input, env);
    PdfStepWrites(spoken, env);
  }

  /** The stages after the text stage: nothing more once it has raised,
      otherwise a prefix of the remaining planned stages. */
  function AfterStory(told: Run, input: Inputs, env: Environment): (r: Run)
    requires WellFormed(told.state) && EnvironmentComplete(env)
    ensures told.crashed ==> r.stages == told.stages && r.crashed
    ensures !told.crashed ==>
      && |told.stages| < |r.stages| && r.stages <= told.stages + LaterStages(input)
      && (!r.crashed ==> r.stages == told.stages + LaterStages(input))
    ensures WellFormed(r.state) && r.state.Keys == told.state.Keys
    ensures forall k :: k in told.state && !IsSessionKey(k) ==> r.state[k] == told.state[k]
    ensures StoryPaired(told.state) ==> StoryPaired(r.state)
  {
    if told.crashed then told
    else
      var drawn := ImageStep(told, input, env);
      assert forall k :: k in told.state && !IsSessionKey(k) ==> drawn.state[k] == told.state[k];
      PrefixAppend(told.stages, Optional(input.wantImage, ImageStage), FinalStages(input));
      if drawn.crashed then drawn
      else AfterImage(drawn, input, env)
  }

  lemma PrefixAppend<T>(a: seq<T>, b: seq<T>, c: seq<T>)
    ensures a + b <= a + (b + c) && (a + b) + c == a + (b + c)
  {
  }

  /** One click of "Generate Story": rejected input changes nothing;
      otherwise the text, image, speech and PDF stages run in that order,
      the image and speech stages only when asked for, until one of them
      raises. The stages entered are a non-empty prefix of the planned
      ones, all of them when none raises. */
  function Click(state: State, input: Inputs, env: Environment): (r: Run)
    requires WellFormed(state) && EnvironmentComplete(env)
    ensures !InputValid(input.topic, input.keywords) ==> r == Run(state, [], [], false)
    ensures InputValid(input.topic, input.keywords) ==>
      && 1 <= |r.stages| && r.stages <= Planned(input)
      && (!r.crashed ==> r.stages == Planned(input))
    ensures WellFormed(r.state) && r.state.Keys == state.Keys
    ensures forall k :: k in state && !IsSessionKey(k) ==> r.state[k] == state[k]
    ensures StoryPaired(state) ==> StoryPaired(r.state)
  {
    if !InputValid(input.topic, input.keywords) then Run(state, [], [], false)
    else
      var told := StoryStep(Run(state, [], [], false), input, env);
      assert told.stages == [StoryStage];
      assert forall k :: !IsSessionKey(k) ==> !StoryStageKey(k);
      AfterStory(told, input, env)
  }

  /** A prefix of stages in order is in order. */
  lemma InOrderPrefix(a: seq<Stage>, b: seq<Stage>)
    requires InOrder(b) && a <= b
    ensures InOrder(a)
  {
    assert forall i :: 0 <= i < |a| ==> a[i] == b[i];
  }

  /** A click with a blank topic or blank keywords enters no stage, writes
      no file and leaves the session as it was. */
  lemma RejectedClickWritesNothing(state: State, input: Inputs, env: Environment)
    requires WellFormed(state) && EnvironmentComplete(env)
    requires AllSpace(input.topic) || AllSpace(input.keywords)
    ensures Click(state, input, env).writes == [] && Click(state, input, env).state == state
  {
  }

  /** Without the image stage, an accepted click whose text stage does not
      raise goes on with the speech and PDF stages. */
  lemma ClickWithoutImage(state: State, input: Inputs, env: Environment)
    requires WellFormed(state) && EnvironmentComplete(env)
    requires InputValid(input.topic, input.keywords) && !input.wantImage
    ensures var told := StoryStep(Run(state, [], [], false), input, env);
      !told.crashed ==> Click(state, input, env) == AfterImage(told, input, env)
  {
  }

  /** Without the image stage the stored image URL is left as it was, and
      it is the one the PDF stage exports with. */
  lemma ImageUrlPersistsWithoutImage(state: State, input: Inputs, env: Environment)
    requires WellFormed(state) && EnvironmentComplete(env) && !input.wantImage
    ensures Click(state, input, env).state[ImageUrlKey] == state[ImageUrlKey]
  {
    if InputValid(input.topic, input.keywords) {
      var told := StoryStep(Run(state, [], [], false), input, env);
      assert told.state[ImageUrlKey] == state[ImageUrlKey];
      if !told.crashed {
        ClickWithoutImage(state, input, env);
        AfterImageOutcome(told, input, env);
      }
    }
  }

  /** The image URL the PDF stage of a click exports with: the one the
      image stage returned, or the stored one without the image stage. */
  function ExportedUrl(state: State, input: Inputs, env: Environment): Option<string>
    requires ImageUrlKey in state && EnvironmentComplete(env)
  {
    if input.wantImage then
      match ImageGen.ImageOutcome(env.imageCredentials, env.imageOutcomes)
      case Returned(url) => url
      case Escaped => None
    else TextOf(state[ImageUrlKey])
  }

  /** A click whose story arrives and whose image stage, when asked for,
      does not raise goes through every planned stage. It writes the text
      export, then the audio file if one is made, then the PDF export, all
      under the cleaned title, and stores the story, the title and the PDF's
      path. */
  lemma ClickExports(state: State, input: Inputs, env: Environment)
    requires WellFormed(state) && EnvironmentComplete(env)
    requires InputValid(input.topic, input.keywords) && StoryArrived(env.storyResponse)
    requires input.wantImage ==> ImageGen.ImageOutcome(env.imageCredentials, env.imageOutcomes).Returned?
    ensures var r := Click(state, input, env);
      var title := StoredTitle(env);
      var story := Strip(env.storyResponse.value);
      && !r.crashed && r.stages == Planned(input)
      && r.state[TitleKey] == PyText(title) && r.state[StoryKey] == PyText(story)
      && r.state[PdfPathKey] == PyText(Exporter.ExportPath(title, ".pdf"))
      && r.writes == [Exporter.SaveText(title, story)] + AudioWrites(PyText(story), input, env)
                     + Exporter.SavePdf(title, story, ExportedUrl(state, input, env), env.pdfImageFetch, env.wrap).writes
  {
    var told := StoryStep(Run(state, [], [], false), input, env);
    ClickDrawn(state, input, env);
    ClickThroughImage(state, input, env);
    ExportsAfterImage(ImageStep(told, input, env), input, env,
                      StoredTitle(env), Strip(env.storyResponse.value), ExportedUrl(state, input, env));
  }

  /** Up to the image stage, such a click has written the text export and
      holds the story, the title and the URL the PDF stage exports with. */
  lemma ClickDrawn(state: State, input: Inputs, env: Environment)
    requires WellFormed(state) && EnvironmentComplete(env)
    requires InputValid(input.topic, input.keywords) && StoryArrived(env.storyResponse)
    requires input.wantImage ==> ImageGen.ImageOutcome(env.imageCredentials, env.imageOutcomes).Returned?
    ensures var told := StoryStep(Run(state, [], [], false), input, env);
      var drawn := ImageStep(told, input, env);
      && WellFormed(drawn.state) && !drawn.crashed
      && drawn.writes == [Exporter.SaveText(StoredTitle(env), Strip(env.storyResponse.value))]
      && drawn.state[TitleKey] == PyText(StoredTitle(env))
      && drawn.state[StoryKey] == PyText(Strip(env.storyResponse.value))
      && TextOf(drawn.state[ImageUrlKey]) == ExportedUrl(state, input, env)
  {
    var told := StoryStep(Run(state, [], [], false), input, env);
    ClickTold(state, input, env);
    ImageStepExports(state, told, input, env);
  }

  /** The text stage of a click whose story arrives. */
  lemma ClickTold(state: State, input: Inputs, env: Environment)
    requires WellFormed(state) && StoryArrived(env.storyResponse)
    ensures var told := StoryStep(Run(state, [], [], false), input, env);
      && !told.crashed && told.writes == [Exporter.SaveText(StoredTitle(env), Strip(env.storyResponse.value))]
      && told.state[TitleKey] == PyText(StoredTitle(env)) && told.state[StoryKey] == PyText(Strip(env.storyResponse.value))
      && told.state.Keys == state.Keys && told.state[ImageUrlKey] == state[ImageUrlKey]
  {
    StoryStepStores(Run(state, [], [], false), input, env);
  }

  /** The speech and PDF stages after an image stage that left a title, a
      story and an image URL: the audio file, then the PDF export. */
  lemma ExportsAfterImage(drawn: Run, input: Inputs, env: Environment, title: string, story: string, url: Option<string>)
    requires WellFormed(drawn.state) && !drawn.crashed
    requires drawn.state[TitleKey] == PyText(title) && drawn.state[StoryKey] == PyText(story)
    requires TextOf(drawn.state[ImageUrlKey]) == url
    ensures var r := AfterImage(drawn, input, env);
      && !r.crashed && r.stages == drawn.stages + FinalStages(input)
      && r.state[TitleKey] == PyText(title) && r.state[StoryKey] == PyText(story)
      && r.state[PdfPathKey] == PyText(Exporter.ExportPath(title, ".pdf"))
      && r.writes == drawn.writes + AudioWrites(PyText(story), input, env)
                     + Exporter.SavePdf(title, story, url, env.pdfImageFetch, env.wrap).writes
  {
    AfterImageOutcome(drawn, input, env);
  }

  /** When neither the text stage nor the image stage raises, the click
      goes on with the speech and PDF stages. */
  lemma ClickThroughImage(state: State, input: Inputs, env: Environment)
    requires WellFormed(state) && EnvironmentComplete(env) && InputValid(input.topic, input.keywords)
    ensures var told := StoryStep(Run(state, [], [], false), input, env);
      !told.crashed && !ImageStep(told, input, env).crashed ==>
      Click(state, input, env) == AfterImage(ImageStep(told, input, env), input, env)
  {
  }

  /** The image stage of a click that does not raise keeps the stored
      story, title and files, and leaves the URL the PDF stage exports. */
  lemma ImageStepExports(state: State, told: Run, input: Inputs, env: Environment)
    requires WellFormed(state) && WellFormed(told.state) && !told.crashed && EnvironmentComplete(env)
    requires told.state.Keys == state.Keys && told.state[ImageUrlKey] == state[ImageUrlKey]
    requires input.wantImage ==> ImageGen.ImageOutcome(env.imageCredentials, env.imageOutcomes).Returned?
    ensures var drawn := ImageStep(told, input, env);
      && !drawn.crashed && drawn.writes == told.writes
      && drawn.state[TitleKey] == told.state[TitleKey] && drawn.state[StoryKey] == told.state[StoryKey]
      && TextOf(drawn.state[ImageUrlKey]) == ExportedUrl(state, input, env)
  {
  }

  /** Without the image stage, a story response that is only whitespace
      stores nothing, yet the PDF stage still runs: it exports the title,
      story and image URL left by an earlier click, under that earlier
      title, and besides the audio file, if one is made, those are the only
      files written. */
  lemma BlankStoryExportsEarlierStory(state: State, input: Inputs, env: Environment)
    requires WellFormed(state) && EnvironmentComplete(env)
    requires InputValid(input.topic, input.keywords) && !input.wantImage
    requires Truthy(env.storyResponse) && AllSpace(env.storyResponse.value)
    requires state[TitleKey].PyText? && state[StoryKey].PyText?
    ensures var r := Click(state, input, env);
      && !r.crashed
      && r.state[StoryKey] == state[StoryKey] && r.state[TitleKey] == state[TitleKey]
      && r.state[PdfPathKey] == PyText(Exporter.ExportPath(state[TitleKey].text, ".pdf"))
      && r.writes == AudioWrites(state[StoryKey], input, env) + Exporter.SavePdf(state[TitleKey].text, state[StoryKey].text,
                                      TextOf(state[ImageUrlKey]), env.pdfImageFetch, env.wrap).writes
  {
    ClickWithoutImage(state, input, env);
    var told := StoryStep(Run(state, [], [], false), input, env);
    assert !told.crashed && told.state == state && told.writes == [];
    AfterImageOutcome(told, input, env);
    assert told.writes + AudioWrites(state[StoryKey], input, env) == AudioWrites(state[StoryKey], input, env);
  }

  /** Without a stored title, a whitespace-only story response lets every
      planned stage run and the PDF stage raise; no file is written but the
      audio file, if one is made. */
  lemma BlankStoryWithoutTitleFailsPdf(state: State, input: Inputs, env: Environment)
    requires WellFormed(state) && EnvironmentComplete(env) && state[TitleKey].PyNone?
    requires InputValid(input.topic, input.keywords) && !input.wantImage
    requires Truthy(env.storyResponse) && !StoryArrived(env.storyResponse)
    ensures var r := Click(state, input, env);
      r.crashed && r.stages == Planned(input) && r.writes == AudioWrites(state[StoryKey], input, env)
  {
    ClickWithoutImage(state, input, env);
    var told := StoryStep(Run(state, [], [], false), input, env);
    assert !told.crashed && told.state == state && told.writes == [];
    assert told.stages == [StoryStage];
    assert LaterStages(input) == FinalStages(input);
    AfterImageOutcome(told, input, env);
  }

  /** In particular on the first run of a session. */
  lemma BlankFirstStoryFailsPdf(input: Inputs, env: Environment)
    requires EnvironmentComplete(env)
    requires InputValid(input.topic, input.keywords) && !input.wantImage
    requires Truthy(env.storyResponse) && AllSpace(env.storyResponse.value)
    ensures var s := StartRun(map[]).state;
      WellFormed(s) && Click(s, input, env).crashed && Click(s, input, env).writes == AudioWrites(PyNone, input, env)
  {
    FreshSession();
    var s := StartRun(map[]).state;
    BlankStoryWithoutTitleFailsPdf(s, input, env);
  }

  /** The planned stages follow the script's order. */
  lemma PlannedInOrder(input: Inputs)
    ensures InOrder(Planned(input))
  {
    var p := Planned(input);
    var image := Optional(input.wantImage, ImageStage);
    var speech := Optional(input.wantSpeech, SpeechStage);
    assert p == [StoryStage] + (image + (speech + [PdfStage]));
    forall i, j | 0 <= i < j < |p|
      ensures StageRank(p[i]) < StageRank(p[j])
    {
    }
  }

  /** The stages a click enters follow the script's order. */
  lemma ClickInOrder(state: State, input: Inputs, env: Environment)
    requires WellFormed(state) && EnvironmentComplete(env)
    ensures InOrder(Click(state, input, env).stages)
  {
    if InputValid(input.topic, input.keywords) {
      PlannedInOrder(input);
      InOrderPrefix(Click(state, input, env).stages, Planned(input));
    }
  }

  /** With the story and title paired, a click that gets through the text
      and image stages fails in the PDF stage exactly when no story has
      been stored, before or during this click. */
  lemma PdfFailsIffNoStory(state: State, input: Inputs, env: Environment)
    requires WellFormed(state) && EnvironmentComplete(env) && StoryPaired(state)
    requires InputValid(input.topic, input.keywords)
    requires Truthy(env.storyResponse)
    requires !input.wantImage
    ensures Click(state, input, env).crashed <==>
      state[StoryKey].PyNone? && AllSpace(env.storyResponse.value)
  {
    ClickWithoutImage(state, input, env);
    var told := StoryStep(Run(state, [], [], false), input, env);
    assert !told.crashed && StoryPaired(told.state);
    assert told.state[StoryKey].PyNone? <==> state[StoryKey].PyNone? && AllSpace(env.storyResponse.value);
    AfterImageOutcome(told, input, env);
  }
}

=== FILE: exporter.dfy ===
/**
 * The story exporter: the file stem it derives from a title, the plain-text
 * file, and the PDF whose body is paginated by the `Pagination` cursor.
 * Exports are returned as the files they would write, not written.
 */
module Exporter {
  import opened Wrappers
  import opened PyStr
  import opened Pagination

  const ExportDir: string := "output_stories"
  /** Width handed to the line wrapper: the page width less both margins. */
  const TextWidth: int := PageWidth - 2 * Margin
  /** Body start below an embedded illustration. */
  const BodyBelowImage: int := PageHeight - 350
  /** Body start when no illustration was placed. */
  const BodyBelowTitle: int := PageHeight - 80

  /** What a successful image download led to when the PDF was built. */
  datatype ImageHandling =
    | DecodeFailed   // the downloaded bytes could not be opened as an image
    | SaveFailed     // the image could not be written next to the exports
    | DrawFailed     // the copy was written but could not be placed on the page
    | Placed         // the copy was written and drawn above the body

  /** The outcome of fetching the illustration URL while building the PDF. */
  datatype ImageFetch = FetchRaised | Fetched(status: int, handling: ImageHandling)

  datatype PdfDoc = PdfDoc(title: string, image: Option<string>, body: seq<Placement>, pages: nat)

  /** What a written file holds. `AudioReading` is the speech service's
      reading of a text, which the speech generator saves before it returns
      the file's path; the text is `None` when no story was stored. */
  datatype FileContent =
    | TextFile(text: string) | PdfFile(doc: PdfDoc) | ImageCopy(url: string)
    | AudioReading(spoken: Option<string>)

  datatype FileWrite = FileWrite(path: string, content: FileContent)

  datatype PdfExport = PdfExport(path: string, writes: seq<FileWrite>, doc: PdfDoc)

  /** The file stem built from a title: strip, spaces to underscores, double
      quotes dropped. */
  function Sanitize(title: string): (stem: string)
    ensures ' ' !in stem && '"' !in stem
    ensures |stem| <= |title|
  {
    var replaced := ReplaceChar(Strip(title), ' ', '_');
    var stem := RemoveChar(replaced, '"');
    RemoveCharKeeps(replaced, '"', ' ');
    stem
  }

  /** Whitespace around the title never reaches the stem: it is stripped
      before spaces turn into underscores. */
  lemma SanitizeIgnoresSurroundingSpace(w1: string, title: string, w2: string)
    requires AllSpace(w1) && AllSpace(w2)
    ensures Sanitize(w1 + title + w2) == Sanitize(title)
  {
    StripSurrounded(w1, title, w2);
  }

  lemma ReplaceAbsent(s: string, a: char, b: char)
    requires a !in s
    ensures ReplaceChar(s, a, b) == s
  {
    var r := ReplaceChar(s, a, b);
    assert forall i :: 0 <= i < |s| ==> r[i] == s[i];
  }

  /** The stems that sanitising leaves alone are exactly the stripped ones
      without spaces or double quotes. */
  lemma SanitizeFixedPoints(stem: string)
    ensures Sanitize(stem) == stem <==> (' ' !in stem && '"' !in stem && IsStripped(stem))
  {
    StripFixedIff(stem);
    if ' ' !in stem && '"' !in stem && IsStripped(stem) {
      ReplaceAbsent(stem, ' ', '_');
    }
  }

  /** Sanitising twice gives the same stem exactly when the first stem has
      no whitespace at either end. */
  lemma SanitizeIdempotentIff(title: string)
    ensures Sanitize(Sanitize(title)) == Sanitize(title) <==> IsStripped(Sanitize(title))
  {
    SanitizeFixedPoints(Sanitize(title));
  }

  /** A word for the examples below: no spaces, no double quotes. */
  predicate PlainWord(w: string) {
    ' ' !in w && '"' !in w
  }

  /** Whitespace other than a space between a leading double quote and the
      text survives the first pass, because quotes are dropped only after
      stripping; the second pass strips it. So `"<TAB>x` sanitises to
      `<TAB>x`, which sanitises to `x`. */
  lemma SanitizeNotAlwaysIdempotent(w: string, x: string)
    requires |w| > 0 && AllSpace(w) && ' ' !in w
    requires |x| > 0 && IsStripped(x) && PlainWord(x)
    ensures Sanitize("\"" + w + x) == w + x
    ensures Sanitize(Sanitize("\"" + w + x)) == x
    ensures Sanitize(Sanitize("\"" + w + x)) != Sanitize("\"" + w + x)
  {
    QuotedSpaceFirstPass(w, x);
    QuotedSpaceSecondPass(w, x);
  }

  lemma QuotedSpaceFirstPass(w: string, x: string)
    requires |w| > 0 && AllSpace(w) && ' ' !in w
    requires |x| > 0 && IsStripped(x) && PlainWord(x)
    ensures Sanitize("\"" + w + x) == w + x
  {
    var t := "\"" + w + x;
    assert t[0] == '"' && t[|t| - 1] == x[|x| - 1];
    StripOfStripped(t);
    assert ' ' !in t by {
      assert forall i :: 0 <= i < |t| ==> t[i] == '"' || t[i] in w || t[i] in x;
    }
    ReplaceAbsent(t, ' ', '_');
    assert !IsSpace('"');
    DropLeadingQuote(w, x);
  }

  lemma DropLeadingQuote(w: string, x: string)
    requires '"' !in w && '"' !in x
    ensures RemoveChar("\"" + w + x, '"') == w + x
  {
    var v := w + x;
    RemoveCharAppend("\"", v, '"');
    assert "\"" + v == "\"" + w + x;
    assert RemoveChar("\"", '"') == "";
  }

  lemma QuotedSpaceSecondPass(w: string, x: string)
    requires AllSpace(w)
    requires IsStripped(x) && PlainWord(x)
    ensures Sanitize(w + x) == x
  {
    StripUnique(w, x, "");
    assert w + x + "" == w + x;
    ReplaceAbsent(x, ' ', '_');
  }

  /** Two plain words around a quoted one, as in `A "Grand" Tale`, become
      the three words joined by underscores (`A_Grand_Tale`). */
  lemma SanitizeQuotedWord(a: string, b: string, c: string)
    requires PlainWord(a) && PlainWord(b) && PlainWord(c)
    requires |a| > 0 && !IsSpace(a[0]) && |c| > 0 && !IsSpace(c[|c| - 1])
    ensures Sanitize(a + " \"" + b + "\" " + c) == a + "_" + b + "_" + c
  {
    var t := a + " \"" + b + "\" " + c;
    assert t[0] == a[0] && t[|t| - 1] == c[|c| - 1];
    StripOfStripped(t);
    QuotedWordSpaces(a, b, c);
    QuotedWordQuotes(a, b, c);
  }

  lemma QuotedWordSpaces(a: string, b: string, c: string)
    requires PlainWord(a) && PlainWord(b) && PlainWord(c)
    ensures ReplaceChar(a + " \"" + b + "\" " + c, ' ', '_') == a + "_\"" + b + "\"_" + c
  {
    ReplaceCharAppend(a + " \"" + b + "\" ", c, ' ', '_');
    ReplaceCharAppend(a + " \"" + b, "\" ", ' ', '_');
    ReplaceCharAppend(a + " \"", b, ' ', '_');
    ReplaceCharAppend(a, " \"", ' ', '_');
    ReplaceAbsent(a, ' ', '_');
    ReplaceAbsent(b, ' ', '_');
    ReplaceAbsent(c, ' ', '_');
    assert ReplaceChar(" \"", ' ', '_') == "_\"";
    assert ReplaceChar("\" ", ' ', '_') == "\"_";
  }

  lemma QuotedWordQuotes(a: string, b: string, c: string)
    requires PlainWord(a) && PlainWord(b) && PlainWord(c)
    ensures RemoveChar(a + "_\"" + b + "\"_" + c, '"') == a + "_" + b + "_" + c
  {
    RemoveCharAppend(a + "_\"" + b + "\"_", c, '"');
    RemoveCharAppend(a + "_\"" + b, "\"_", '"');
    RemoveCharAppend(a + "_\"", b, '"');
    RemoveCharAppend(a, "_\"", '"');
    assert RemoveChar("_\"", '"') == "_";
    assert RemoveChar("\"_", '"') == "_";
  }

  /** POSIX `os.path.join(dir, name)`: an absolute `name` replaces `dir`. */
  function PathJoin(dir: string, name: string): string {
    if |name| > 0 && name[0] == '/' then name
    else if |dir| == 0 || dir[|dir| - 1] == '/' then dir + name
    else dir + "/" + name
  }

  /** The path of the export of `title` with extension `ext`. */
  function ExportPath(title: string, ext: string): string {
    PathJoin(ExportDir, Sanitize(title) + ext)
  }

  /** The export path has the shape `<dir>/<stem><ext>` exactly when the
      stem does not start with a slash. The path is not resolved: a stem
      such as `../x` keeps that shape yet names a file outside the
      directory. */
  lemma ExportPathInsideDirIff(title: string, ext: string)
    requires |ext| > 0 && ext[0] == '.'
    ensures var stem := Sanitize(title);
      ExportPath(title, ext) == ExportDir + "/" + stem + ext <==> !(|stem| > 0 && stem[0] == '/')
  {
    var stem := Sanitize(title);
    if |stem| > 0 && stem[0] == '/' {
      assert ExportPath(title, ext)[0] == '/';
      assert (ExportDir + "/" + stem + ext)[0] == 'o';
    } else {
      assert (stem + ext)[0] != '/' by {
        if |stem| == 0 { assert (stem + ext)[0] == ext[0]; }
      }
    }
  }

  /** The text export: the raw title, a blank line, then the story. */
  function SaveText(title: string, story: string): (w: FileWrite)
    ensures w.path == ExportPath(title, ".txt")
    ensures w.content.TextFile? && title <= w.content.text
    ensures w.content.text[|title|..] == "\n\n" + story
  {
    var text := title + "\n\n" + story;
    assert text == title + ("\n\n" + story);
    assert text[|title|..] == "\n\n" + story;
    FileWrite(ExportPath(title, ".txt"), TextFile(text))
  }

  /** A blank line ("\n\n") starts at index `k` of `text`. */
  predicate BlankLineAt(text: string, k: nat) {
    k + 2 <= |text| && text[k] == '\n' && text[k + 1] == '\n'
  }

  /** Index of the first blank line in `text`, if any. */
  function FirstBlankLine(text: string): (r: Option<nat>)
    ensures r.Some? ==> BlankLineAt(text, r.value)
    ensures r.Some? ==> forall k: nat :: k < r.value ==> !BlankLineAt(text, k)
    ensures r.None? ==> forall k: nat :: !BlankLineAt(text, k)
    decreases |text|
  {
    if |text| < 2 then None
    else if text[0] == '\n' && text[1] == '\n' then Some(0)
    else
      var rest := FirstBlankLine(text[1..]);
      assert forall k: nat :: 1 <= k ==> (BlankLineAt(text, k) <==> BlankLineAt(text[1..], k - 1));
      match rest
      case None => None
      case Some(k) => Some(k + 1)
  }

  /** Reads a text export back as (title, story), cutting at the first blank line. */
  function ReadText(text: string): Option<(string, string)> {
    match FirstBlankLine(text)
    case None => None
    case Some(k) => Some((text[..k], text[k + 2..]))
  }

  /** A title the text export can be cut after: no blank line inside it and
      no line break at its end. */
  predicate CuttableTitle(title: string) {
    && (forall k :: 0 <= k < |title| - 1 ==> !(title[k] == '\n' && title[k + 1] == '\n'))
    && (|title| > 0 ==> title[|title| - 1] != '\n')
  }

  /** Reading the text export back recovers the title and the story exactly
      when the title has no blank line and does not end in a line break;
      otherwise the cut falls inside the title. */
  lemma TextRoundTrip(title: string, story: string)
    ensures ReadText(SaveText(title, story).content.text) == Some((title, story)) <==> CuttableTitle(title)
  {
    var text := title + "\n\n" + story;
    assert text == SaveText(title, story).content.text;
    assert BlankLineAt(text, |title|);
    var r := FirstBlankLine(text);
    if CuttableTitle(title) {
      forall k: nat | k < |title|
        ensures !BlankLineAt(text, k)
      {
        assert text[k] == title[k];
        if k + 1 < |title| {
          assert text[k + 1] == title[k + 1];
        }
      }
      assert r.Some? && r.value == |title|;
      assert text[..|title|] == title;
      assert text[|title| + 2..] == story;
    } else {
      var k: nat :| k < |title| && BlankLineAt(text, k) by {
        if |title| > 0 && title[|title| - 1] == '\n' {
          assert text[|title| - 1] == '\n' && text[|title|] == '\n';
          assert BlankLineAt(text, |title| - 1);
        } else {
          var j :| 0 <= j < |title| - 1 && title[j] == '\n' && title[j + 1] == '\n';
          assert text[j] == title[j] && text[j + 1] == title[j + 1];
          assert BlankLineAt(text, j);
        }
      }
      assert r.Some? && r.value <= k;
      assert |ReadText(text).value.0| < |title|;
    }
  }

  /** The wrapped lines of one paragraph after another. */
  function WrapAll(paragraphs: seq<string>, wrap: (string, int) -> seq<string>): seq<string>
    decreases |paragraphs|
  {
    if |paragraphs| == 0 then [] else wrap(paragraphs[0], TextWidth) + WrapAll(paragraphs[1..], wrap)
  }

  lemma {:induction false} WrapAllAppend(a: seq<string>, b: seq<string>, wrap: (string, int) -> seq<string>)
    ensures WrapAll(a + b, wrap) == WrapAll(a, wrap) + WrapAll(b, wrap)
    decreases |a|
  {
    if |a| > 0 {
      assert (a + b)[1..] == a[1..] + b;
      WrapAllAppend(a[1..], b, wrap);
      assert WrapAll(a + b, wrap) == wrap(a[0], TextWidth) + (WrapAll(a[1..], wrap) + WrapAll(b, wrap));
    } else {
      assert a + b == b;
    }
  }

  /** The body lines of the PDF: the story split on line breaks, each
      paragraph wrapped to the text width. */
  function BodyLines(story: string, wrap: (string, int) -> seq<string>): seq<string> {
    WrapAll(Split(story, '\n'), wrap)
  }

  /** The paragraphs the body is wrapped from, joined back with line
      breaks, are the story: splitting drops no text. */
  lemma BodyParagraphsCoverStory(story: string)
    ensures Join(Split(story, '\n'), "\n") == story
  {
    JoinSplit(story, '\n');
  }

  /** A story made of line-free paragraphs joined by line breaks is wrapped
      paragraph by paragraph, in order. */
  lemma BodyLinesOfParagraphs(paragraphs: seq<string>, wrap: (string, int) -> seq<string>)
    requires |paragraphs| >= 1
    requires forall k :: 0 <= k < |paragraphs| ==> '\n' !in paragraphs[k]
    ensures BodyLines(Join(paragraphs, "\n"), wrap) == WrapAll(paragraphs, wrap)
  {
    SplitJoin(paragraphs, '\n');
  }

  /** Joining two stories with a line break joins their body lines, so the
      body keeps the order of the text. */
  lemma BodyLinesAppend(a: string, b: string, wrap: (string, int) -> seq<string>)
    ensures BodyLines(a + "\n" + b, wrap) == BodyLines(a, wrap) + BodyLines(b, wrap)
  {
    SplitAround(a, b, '\n');
    assert a + "\n" + b == a + ['\n'] + b;
    WrapAllAppend(Split(a, '\n'), Split(b, '\n'), wrap);
  }

  /** A single paragraph is wrapped on its own. */
  lemma BodyLinesOfParagraph(p: string, wrap: (string, int) -> seq<string>)
    requires '\n' !in p
    ensures BodyLines(p, wrap) == wrap(p, TextWidth)
  {
    SplitWithoutSeparator(p, '\n');
    assert wrap(p, TextWidth) + [] == wrap(p, TextWidth);
  }

  /** The illustration was downloaded, decoded, copied and drawn. */
  predicate ImagePlaced(url: Option<string>, fetch: ImageFetch) {
    Truthy(url) && fetch.Fetched? && fetch.status == 200 && fetch.handling == Placed
  }

  /** Height at which the body starts on the title page. */
  function BodyStart(url: Option<string>, fetch: ImageFetch): (y: int)
    ensures y == BodyBelowImage || y == BodyBelowTitle
    ensures y == BodyBelowImage <==> ImagePlaced(url, fetch)
  {
    if Truthy(url) then
      match fetch
      case FetchRaised => BodyBelowTitle
      case Fetched(status, handling) =>
        if status == 200 then
          if handling == Placed then BodyBelowImage else BodyBelowTitle
        else BodyBelowTitle
    else BodyBelowTitle
  }

  /** The local copy of the illustration, written once the download is
      decoded and saved, whether or not it is then drawn. */
  function ImageCopyWrite(title: string, url: Option<string>, fetch: ImageFetch): (w: Option<FileWrite>)
    ensures w.Some? <==> Truthy(url) && fetch.Fetched? && fetch.status == 200
                         && (fetch.handling == DrawFailed || fetch.handling == Placed)
    ensures w.Some? ==> w.value == FileWrite(ExportPath(title, ".jpg"), ImageCopy(url.value))
  {
    if Truthy(url) && fetch.Fetched? && fetch.status == 200 && fetch.handling in {DrawFailed, Placed}
    then Some(FileWrite(ExportPath(title, ".jpg"), ImageCopy(url.value)))
    else None
  }

  /** The PDF export: the title on the first page, the illustration when it
      could be placed, and the body lines laid out by the cursor from the
      body start. */
  function SavePdf(title: string, story: string, url: Option<string>, fetch: ImageFetch,
                   wrap: (string, int) -> seq<string>): (r: PdfExport)
    ensures r.path == ExportPath(title, ".pdf")
    ensures r.doc.title == title
    ensures r.doc.image.Some? <==> ImagePlaced(url, fetch)
    ensures var layout := LayOut(BodyLines(story, wrap), Cursor(0, BodyStart(url, fetch)));
      r.doc.body == layout.placed && r.doc.pages == layout.final.page + 1
    ensures r.writes == (match ImageCopyWrite(title, url, fetch) case Some(w) => [w] case None => [])
                        + [FileWrite(r.path, PdfFile(r.doc))]
  {
    var layout := LayOut(BodyLines(story, wrap), Cursor(0, BodyStart(url, fetch)));
    var doc := PdfDoc(title, if ImagePlaced(url, fetch) then url else None, layout.placed, layout.final.page + 1);
    var path := ExportPath(title, ".pdf");
    var copy := ImageCopyWrite(title, url, fetch);
    var writes := (if copy.Some? then [copy.value] else []) + [FileWrite(path, PdfFile(doc))];
    PdfExport(path, writes, doc)
  }

  /** The PDF body holds every wrapped line, in order, strictly above the
      bottom threshold and no higher than the top of a page; the page count
      is one more than the breaks the closed form predicts. */
  lemma SavePdfBody(title: string, story: string, url: Option<string>, fetch: ImageFetch,
                    wrap: (string, int) -> seq<string>)
    ensures var doc := SavePdf(title, story, url, fetch, wrap).doc;
      var lines := BodyLines(story, wrap);
      && |doc.body| == |lines|
      && (forall i :: 0 <= i < |doc.body| ==>
            doc.body[i].text == lines[i] && BottomThreshold < doc.body[i].y <= TopOfPage)
      && doc.pages == 1 + ExtraPages(|lines|, Capacity(BodyStart(url, fetch)))
  {
    var lines := BodyLines(story, wrap);
    var c := Cursor(0, BodyStart(url, fetch));
    LayOutPlacements(lines, c);
    BreaksClosedForm(lines, c);
  }

  /** The body of the PDF starts at the body start on the title page, and
      each further line sits one spacing below the previous one, or at the
      top of a new page when the previous one left the cursor at or below
      the bottom threshold. */
  lemma PdfBodySteps(title: string, story: string, url: Option<string>, fetch: ImageFetch,
                     wrap: (string, int) -> seq<string>)
    ensures var body := SavePdf(title, story, url, fetch, wrap).doc.body;
      && (|body| > 0 ==> body[0] == Placement(0, BodyStart(url, fetch), BodyLines(story, wrap)[0]))
      && forall i :: 0 < i < |body| ==>
           if body[i - 1].y - LineSpacing <= BottomThreshold
           then body[i].page == body[i - 1].page + 1 && body[i].y == TopOfPage
           else body[i].page == body[i - 1].page && body[i].y == body[i - 1].y - LineSpacing
  {
    LayOutSteps(BodyLines(story, wrap), Cursor(0, BodyStart(url, fetch)));
  }

  /** The text, PDF and image files of one title share one stem and differ
      only in their extension. */
  lemma SharedStem(title: string, story: string, url: Option<string>, fetch: ImageFetch,
                   wrap: (string, int) -> seq<string>)
    ensures var stem := Sanitize(title);
      && SaveText(title, story).path == PathJoin(ExportDir, stem + ".txt")
      && SavePdf(title, story, url, fetch, wrap).path == PathJoin(ExportDir, stem + ".pdf")
      && (ImageCopyWrite(title, url, fetch).Some? ==>
            ImageCopyWrite(title, url, fetch).value.path == PathJoin(ExportDir, stem + ".jpg"))
  {
  }
}

=== FILE: image.dfy ===
/**
 * Requesting the story illustration. The image service is not modelled:
 * what each attempt of the request yields is an input. Only an HTTP error
 * is retried; any other error escapes the generator.
 */
module ImageGen {
  import opened Wrappers
  import opened PyStr

  /** The request is sent at most this many times. */
  const MaxAttempts: nat := 2
  const ImageModel: string := "dall-e-3"
  const ImageSize: string := "1024x1024"

  const PromptOpening: string := "A detailed, high-quality "
  const PromptAfterGenre: string := " scene inspired by the story topic: "
  const PromptAfterTopic: string := ". The scene should include "
  const PromptClosing: string := ", rendered in a cinematic, visually stunning style."

  /** The endpoint and key read from the secrets, `None` when missing. */
  datatype Credentials = Credentials(endpoint: Option<string>, apiKey: Option<string>)

  datatype Payload = Payload(prompt: string, model: string, size: string)

  /** The request as posted: where to, the key sent in the `api-key` header,
      and the JSON body. */
  datatype Request = Request(endpoint: string, apiKey: string, payload: Payload)

  /** What one attempt yields: a response whose body holds an optional URL,
      an HTTP error status, or some other error (connection failure, a body
      that is not the expected JSON). */
  datatype Attempt = Answered(url: Option<string>) | HttpFailed | OtherFailed

  /** The generator either returns an optional URL or lets an error escape. */
  datatype ImageResult = Returned(url: Option<string>) | Escaped

  /** What one call did: the request built (none without credentials), how
      many times it was sent, and the result. */
  datatype ImageCall = ImageCall(request: Option<Request>, attempts: nat, result: ImageResult)

  predicate HasCredentials(c: Credentials) {
    Truthy(c.endpoint) && Truthy(c.apiKey)
  }

  /** The topic as the prompt quotes it. */
  function Quoted(topic: string): string {
    "'" + topic + "'"
  }

  /** The prompt: the genre in lower case, the topic in single quotes and
      the keyword text exactly as typed. */
  function ImagePrompt(genre: string, topic: string, keywords: string): (p: string)
    ensures Contains(p, LowerAscii(genre)) && Contains(p, Quoted(topic)) && Contains(p, keywords)
    ensures Contains(p, topic)
    ensures PromptOpening <= p
  {
    var pieces := [PromptOpening, LowerAscii(genre), PromptAfterGenre, Quoted(topic), PromptAfterTopic, keywords, PromptClosing];
    ConcatContains(pieces, 1);
    ConcatContains(pieces, 3);
    ConcatContains(pieces, 5);
    assert Quoted(topic) == "'" + (topic + "'");
    ContainsAtFront(topic, "'");
    ContainsAfter("'", topic + "'", topic);
    ContainsWithin(Concat(pieces), Quoted(topic), topic);
    assert Concat(pieces) == PromptOpening + Concat(pieces[1..]);
    Concat(pieces)
  }

  /** How the call ends on the outcome of its last attempt: a response gives
      its URL, an HTTP error on the last attempt gives `None`, and any other
      error escapes. */
  function Settle(a: Attempt): (r: ImageResult)
    ensures r.Escaped? <==> a.OtherFailed?
    ensures a.Answered? ==> r == Returned(a.url)
    ensures a.HttpFailed? ==> r == Returned(None)
    ensures r.Returned? && r.url.Some? ==> a == Answered(r.url)
  {
    match a
    case Answered(url) => Returned(url)
    case HttpFailed => Returned(None)
    case OtherFailed => Escaped
  }

  /** The retry loop from attempt `attempt` on: the number of attempts made
      in all and the result. Every attempt but the last one made failed with
      an HTTP error, and the loop stops early only on an outcome that is not
      an HTTP error. */
  function RetryFrom(outcomes: seq<Attempt>, attempt: nat): (r: (nat, ImageResult))
    requires attempt < MaxAttempts <= |outcomes|
    ensures attempt < r.0 <= MaxAttempts
    ensures forall k :: attempt <= k < r.0 - 1 ==> outcomes[k].HttpFailed?
    ensures r.0 < MaxAttempts ==> !outcomes[r.0 - 1].HttpFailed?
    ensures r.1 == Settle(outcomes[r.0 - 1])
    decreases MaxAttempts - attempt
  {
    if outcomes[attempt].HttpFailed? && attempt + 1 < MaxAttempts then RetryFrom(outcomes, attempt + 1)
    else (attempt + 1, Settle(outcomes[attempt]))
  }

  /** The retry loop as written, one attempt per iteration. */
  method PostWithRetry(outcomes: seq<Attempt>) returns (attempts: nat, result: ImageResult)
    requires MaxAttempts <= |outcomes|
    ensures (attempts, result) == RetryFrom(outcomes, 0)
  {
    attempts := 0;
    while attempts < MaxAttempts
      invariant attempts <= MaxAttempts
      invariant attempts < MaxAttempts ==> RetryFrom(outcomes, attempts) == RetryFrom(outcomes, 0)
      invariant attempts == MaxAttempts ==> RetryFrom(outcomes, 0) == (MaxAttempts, Returned(None))
      decreases MaxAttempts - attempts
    {
      var outcome := outcomes[attempts];
      attempts := attempts + 1;
      match outcome {
        case Answered(url) =>
          return attempts, Returned(url);
        case OtherFailed =>
          return attempts, Escaped;
        case HttpFailed =>
      }
    }
    result := Returned(None);
  }

  /** What the generator returns: `None` without both credentials,
      otherwise what the retry loop settles on. */
  function ImageOutcome(credentials: Credentials, outcomes: seq<Attempt>): (r: ImageResult)
    requires MaxAttempts <= |outcomes|
    ensures !HasCredentials(credentials) ==> r == Returned(None)
    ensures HasCredentials(credentials) ==>
      r == if outcomes[0].HttpFailed? then Settle(outcomes[1]) else Settle(outcomes[0])
  {
    if HasCredentials(credentials) then RetryFrom(outcomes, 0).1 else Returned(None)
  }

  /** One call of the generator. Without both credentials nothing is sent
      and the result is `None`; otherwise the request is built once and sent
      up to twice. */
  function GenerateImage(credentials: Credentials, genre: string, topic: string, keywords: string,
                         outcomes: seq<Attempt>): (c: ImageCall)
    requires MaxAttempts <= |outcomes|
    ensures !HasCredentials(credentials) ==> c == ImageCall(None, 0, Returned(None))
    ensures HasCredentials(credentials) ==>
      && c.request == Some(Request(credentials.endpoint.value, credentials.apiKey.value,
                                   Payload(ImagePrompt(genre, topic, keywords), ImageModel, ImageSize)))
      && c.attempts == (if outcomes[0].HttpFailed? then 2 else 1)
      && c.result == Settle(outcomes[c.attempts - 1])
      && (c.attempts, c.result) == RetryFrom(outcomes, 0)
    ensures c.result == ImageOutcome(credentials, outcomes)
  {
    if !HasCredentials(credentials) then ImageCall(None, 0, Returned(None))
    else
      var request := Request(credentials.endpoint.value, credentials.apiKey.value,
                             Payload(ImagePrompt(genre, topic, keywords), ImageModel, ImageSize));
      var (attempts, result) := RetryFrom(outcomes, 0);
      ImageCall(Some(request), attempts, result)
  }

  /** A URL comes back only from a response to an attempt actually made,
      and the first response ends the loop. */
  lemma ReturnedUrlWasAnswered(outcomes: seq<Attempt>, url: string)
    requires MaxAttempts <= |outcomes|
    requires RetryFrom(outcomes, 0).1 == Returned(Some(url))
    ensures exists k :: 0 <= k < RetryFrom(outcomes, 0).0 && outcomes[k] == Answered(Some(url))
    ensures forall k :: 0 <= k < RetryFrom(outcomes, 0).0 ==> !outcomes[k].Answered? || outcomes[k] == Answered(Some(url))
  {
    var n := RetryFrom(outcomes, 0).0;
    assert outcomes[n - 1] == Answered(Some(url));
  }

  /** The call returns `None` without an escaping error exactly when no
      attempt made produced a URL: each failed with an HTTP error or
      answered without one. */
  lemma NoUrlIff(outcomes: seq<Attempt>)
    requires MaxAttempts <= |outcomes|
    ensures RetryFrom(outcomes, 0).1 == Returned(None) <==>
      (forall k :: 0 <= k < RetryFrom(outcomes, 0).0 ==> outcomes[k] == HttpFailed || outcomes[k] == Answered(None))
  {
    var n := RetryFrom(outcomes, 0).0;
    assert outcomes[n - 1] == HttpFailed || outcomes[n - 1] == Answered(None) ==> Settle(outcomes[n - 1]) == Returned(None);
  }

  /** An error other than an HTTP error on the first attempt is never
      retried. */
  lemma OtherErrorNotRetried(outcomes: seq<Attempt>)
    requires MaxAttempts <= |outcomes|
    requires outcomes[0].OtherFailed?
    ensures RetryFrom(outcomes, 0) == (1, Escaped)
  {
  }

  /** A response to the first attempt ends the loop with its URL. */
  lemma FirstAnswerEndsLoop(outcomes: seq<Attempt>)
    requires MaxAttempts <= |outcomes|
    requires outcomes[0].Answered?
    ensures RetryFrom(outcomes, 0) == (1, Returned(outcomes[0].url))
  {
  }

  /** Two HTTP errors in a row exhaust the loop with `None`. */
  lemma HttpErrorsExhaust(outcomes: seq<Attempt>)
    requires MaxAttempts <= |outcomes|
    requires outcomes[0].HttpFailed? && outcomes[1].HttpFailed?
    ensures RetryFrom(outcomes, 0) == (MaxAttempts, Returned(None))
  {
  }
}

=== FILE: pagination.dfy ===
/**
 * The vertical cursor that places the wrapped body lines of the story PDF.
 * Before each line is drawn, a cursor at or below the bottom threshold starts
 * a new page with the cursor back at the top; after drawing, the cursor drops
 * by one line spacing. Coordinates are PDF points on a Letter page, with the
 * origin at the bottom-left corner.
 */
module Pagination {

  const PageWidth: int := 612
  const PageHeight: int := 792
  const Margin: int := 50
  const LineSpacing: int := 14
  /** A cursor at or below this height forces a page break before drawing. */
  const BottomThreshold: int := 50
  /** Where the cursor restarts on a page opened by a break. */
  const TopOfPage: int := PageHeight - 50
  /** Lines a page opened by a break holds: 742, 728, ..., 56. */
  const LinesPerFreshPage: nat := 50

  /** `page` counts from 0, the page that carries the title. */
  datatype Cursor = Cursor(page: nat, y: int)

  /** One wrapped line drawn at height `y` on page `page`. */
  datatype Placement = Placement(page: nat, y: int, text: string)

  datatype Layout = Layout(placed: seq<Placement>, final: Cursor)

  function Max(a: int, b: int): int {
    if a < b then b else a
  }

  /** Draws `lines` in order starting from cursor `c`; one placement per line,
      and the cursor never moves back to an earlier page. */
  function LayOut(lines: seq<string>, c: Cursor): (r: Layout)
    ensures |r.placed| == |lines|
    ensures c.page <= r.final.page
    ensures |lines| == 0 ==> r.final == c
    ensures |lines| > 0 ==> r.final == Cursor(r.placed[|lines| - 1].page, r.placed[|lines| - 1].y - LineSpacing)
    decreases |lines|
  {
    if |lines| == 0 then Layout([], c)
    else
      var d := if c.y <= BottomThreshold then Cursor(c.page + 1, TopOfPage) else c;
      var rest := LayOut(lines[1..], Cursor(d.page, d.y - LineSpacing));
      Layout([Placement(d.page, d.y, lines[0])] + rest.placed, rest.final)
  }

  /** Lines are drawn in input order, each strictly above the bottom
      threshold and no higher than the start or the top of a fresh page, on
      pages between the starting one and the final one. */
  lemma {:induction false} LayOutPlacements(lines: seq<string>, c: Cursor)
    ensures var r := LayOut(lines, c);
      forall i :: 0 <= i < |lines| ==>
        && r.placed[i].text == lines[i]
        && BottomThreshold < r.placed[i].y <= Max(c.y, TopOfPage)
        && c.page <= r.placed[i].page <= r.final.page
    decreases |lines|
  {
    if |lines| > 0 {
      var d := if c.y <= BottomThreshold then Cursor(c.page + 1, TopOfPage) else c;
      var c' := Cursor(d.page, d.y - LineSpacing);
      LayOutPlacements(lines[1..], c');
      var r := LayOut(lines, c);
      var q := LayOut(lines[1..], c').placed;
      assert r.placed == [Placement(d.page, d.y, lines[0])] + q;
      forall i | 0 < i < |lines|
        ensures r.placed[i].text == lines[i]
        ensures BottomThreshold < r.placed[i].y <= Max(c.y, TopOfPage)
        ensures c.page <= r.placed[i].page <= r.final.page
      {
        assert r.placed[i] == q[i - 1];
      }
    }
  }

  /** The page that line `i` would be drawn on follows from the cursor after
      line `i - 1` alone: a break happens exactly when that cursor is at or
      below the threshold, and otherwise the line sits one spacing lower on
      the same page. */
  lemma {:induction false} LayOutSteps(lines: seq<string>, c: Cursor)
    ensures var p := LayOut(lines, c).placed;
      forall i :: 0 < i < |lines| ==>
        if p[i - 1].y - LineSpacing <= BottomThreshold
        then p[i].page == p[i - 1].page + 1 && p[i].y == TopOfPage
        else p[i].page == p[i - 1].page && p[i].y == p[i - 1].y - LineSpacing
    ensures |lines| > 0 ==>
      LayOut(lines, c).placed[0] ==
        if c.y <= BottomThreshold then Placement(c.page + 1, TopOfPage, lines[0])
        else Placement(c.page, c.y, lines[0])
    decreases |lines|
  {
    if |lines| > 0 {
      var d := if c.y <= BottomThreshold then Cursor(c.page + 1, TopOfPage) else c;
      var c' := Cursor(d.page, d.y - LineSpacing);
      LayOutSteps(lines[1..], c');
      var p := LayOut(lines, c).placed;
      var q := LayOut(lines[1..], c').placed;
      assert p == [Placement(d.page, d.y, lines[0])] + q;
      forall i | 0 < i < |lines|
        ensures if p[i - 1].y - LineSpacing <= BottomThreshold
          then p[i].page == p[i - 1].page + 1 && p[i].y == TopOfPage
          else p[i].page == p[i - 1].page && p[i].y == p[i - 1].y - LineSpacing
      {
        assert p[i] == q[i - 1];
        if i > 1 {
          assert p[i - 1] == q[i - 2];
        }
      }
    }
  }

  /** Every page after the starting one receives at least one line, so the
      final page is never left empty by a break. */
  lemma {:induction false} NoEmptyPage(lines: seq<string>, c: Cursor, page: nat)
    requires c.page < page <= LayOut(lines, c).final.page
    ensures exists i :: 0 <= i < |lines| && LayOut(lines, c).placed[i].page == page
    decreases |lines|
  {
    var d := if c.y <= BottomThreshold then Cursor(c.page + 1, TopOfPage) else c;
    var c' := Cursor(d.page, d.y - LineSpacing);
    var p := LayOut(lines, c).placed;
    assert p[0].page == d.page;
    if page > d.page {
      NoEmptyPage(lines[1..], c', page);
      var i :| 0 <= i < |lines| - 1 && LayOut(lines[1..], c').placed[i].page == page;
      assert p[i + 1] == LayOut(lines[1..], c').placed[i];
    }
  }

  /** Lines that still fit below cursor height `y` without a break. */
  function Capacity(y: int): nat {
    if y <= BottomThreshold then 0 else (y - BottomThreshold - 1) / LineSpacing + 1
  }

  /** Breaks needed to draw `n` lines when `cap` lines fit on the current page. */
  function ExtraPages(n: nat, cap: nat): nat {
    if n <= cap then 0 else 1 + (n - cap - 1) / LinesPerFreshPage
  }

  lemma CapacityOfFreshPage()
    ensures Capacity(TopOfPage) == LinesPerFreshPage
  {
  }

  lemma CapacityStep(y: int)
    requires y > BottomThreshold
    ensures Capacity(y - LineSpacing) + 1 == Capacity(y)
  {
    if y - LineSpacing > BottomThreshold {
      assert (y - BottomThreshold - 1) / LineSpacing == (y - LineSpacing - BottomThreshold - 1) / LineSpacing + 1;
    }
  }

  lemma ExtraPagesAfterBreak(n: nat)
    requires n >= 1
    ensures ExtraPages(n, 0) == 1 + ExtraPages(n - 1, LinesPerFreshPage - 1)
  {
    if n - 1 > LinesPerFreshPage - 1 {
      assert (n - 1) / LinesPerFreshPage == 1 + (n - 1 - LinesPerFreshPage) / LinesPerFreshPage;
    }
  }

  /** A closed form for the cursor machine: the number of page breaks is
      determined by the number of lines and the room left on the page. */
  lemma {:induction false} BreaksClosedForm(lines: seq<string>, c: Cursor)
    ensures LayOut(lines, c).final.page == c.page + ExtraPages(|lines|, Capacity(c.y))
    decreases |lines|
  {
    if |lines| > 0 {
      var n := |lines|;
      if c.y <= BottomThreshold {
        var c' := Cursor(c.page + 1, TopOfPage - LineSpacing);
        assert LayOut(lines, c).final == LayOut(lines[1..], c').final;
        BreaksClosedForm(lines[1..], c');
        CapacityOfFreshPage();
        CapacityStep(TopOfPage);
        ExtraPagesAfterBreak(n);
      } else {
        var c' := Cursor(c.page, c.y - LineSpacing);
        assert LayOut(lines, c).final == LayOut(lines[1..], c').final;
        BreaksClosedForm(lines[1..], c');
        CapacityStep(c.y);
      }
    }
  }

  /** Pages in a document whose body starts at height `start` on the title page. */
  function PageCount(lines: seq<string>, start: int): nat {
    LayOut(lines, Cursor(0, start)).final.page + 1
  }

  lemma ExtraPagesMonotone(n: nat, m: nat, cap: nat)
    requires n <= m
    ensures ExtraPages(n, cap) <= ExtraPages(m, cap)
  {
  }

  /** Adding lines to the end of the body never lowers the page count. */
  lemma PageCountMonotone(lines: seq<string>, more: seq<string>, start: int)
    ensures PageCount(lines, start) <= PageCount(lines + more, start)
  {
    BreaksClosedForm(lines, Cursor(0, start));
    BreaksClosedForm(lines + more, Cursor(0, start));
    ExtraPagesMonotone(|lines|, |lines + more|, Capacity(start));
  }

  /** The document runs to a second page exactly when the body has more
      lines than fit below its starting height. */
  lemma SecondPageIff(lines: seq<string>, start: int)
    ensures PageCount(lines, start) >= 2 <==> |lines| > Capacity(start)
  {
    BreaksClosedForm(lines, Cursor(0, start));
  }
}

=== FILE: pystr.dfy ===
/**
 * The handful of Python `str` operations the story pipeline relies on:
 * `strip()` with no argument, `split(sep)`, `sep.join(parts)`,
 * `replace(old, new)` for one-character arguments, `lower()` on ASCII text,
 * slicing a prefix, `str(n)` for integers, and the truthiness of an
 * optional string.
 */
module PyStr {
  import opened Wrappers

  /** The code points Python's `str.isspace()` accepts; `strip()` with no
      argument removes exactly these from both ends. */
  predicate IsSpace(c: char) {
    var n := c as int;
    || (0x09 <= n <= 0x0D)
    || (0x1C <= n <= 0x20)
    || n == 0x85
    || n == 0xA0
    || n == 0x1680
    || (0x2000 <= n <= 0x200A)
    || n == 0x2028
    || n == 0x2029
    || n == 0x202F
    || n == 0x205F
    || n == 0x3000
  }

  predicate AllSpace(s: string) {
    forall i :: 0 <= i < |s| ==> IsSpace(s[i])
  }

  /** True of a string that `strip()` leaves as it is. */
  predicate IsStripped(s: string) {
    |s| == 0 || (!IsSpace(s[0]) && !IsSpace(s[|s| - 1]))
  }

  /** Python truthiness of an optional string: `None` and `""` are false. */
  predicate Truthy(s: Option<string>) {
    s.Some? && s.value != ""
  }

  /** Number of whitespace characters at the front of `s`. */
  function LeadingSpace(s: string): (n: nat)
    ensures n <= |s|
    ensures forall i :: 0 <= i < n ==> IsSpace(s[i])
    ensures n < |s| ==> !IsSpace(s[n])
    decreases |s|
  {
    if |s| > 0 && IsSpace(s[0]) then 1 + LeadingSpace(s[1..]) else 0
  }

  /** Number of whitespace characters at the back of `s`. */
  function TrailingSpace(s: string): (n: nat)
    ensures n <= |s|
    ensures forall i :: |s| - n <= i < |s| ==> IsSpace(s[i])
    ensures n < |s| ==> !IsSpace(s[|s| - 1 - n])
    decreases |s|
  {
    if |s| > 0 && IsSpace(s[|s| - 1]) then 1 + TrailingSpace(s[..|s| - 1]) else 0
  }

  /** Python's `s.strip()`: the result is a stripped slice of `s` whose
      surroundings in `s` are all whitespace. */
  function Strip(s: string): (r: string)
    ensures IsStripped(r)
    ensures |r| <= |s|
    ensures LeadingSpace(s) + |r| <= |s|
    ensures r == s[LeadingSpace(s)..LeadingSpace(s) + |r|]
    ensures AllSpace(s[..LeadingSpace(s)]) && AllSpace(s[LeadingSpace(s) + |r|..])
  {
    var i := LeadingSpace(s);
    var t := s[i..];
    var j := TrailingSpace(t);
    var r := t[..|t| - j];
    assert r == s[i..i + |r|];
    assert |r| > 0 ==> r[0] == s[i] && r[|r| - 1] == t[|t| - 1 - j];
    assert AllSpace(s[..i]) by {
      forall k | 0 <= k < i ensures IsSpace(s[..i][k]) {
        assert s[..i][k] == s[k];
      }
    }
    var tail := s[i + |r|..];
    assert tail == t[|t| - j..];
    assert AllSpace(tail) by {
      forall k | 0 <= k < j ensures IsSpace(tail[k]) {
        assert tail[k] == t[|t| - j + k];
      }
    }
    r
  }

  /** The characterisation of `Strip` pins its result down: whatever is
      stripped and sits between two runs of whitespace is what `strip()`
      returns. */
  lemma StripUnique(w1: string, r: string, w2: string)
    requires AllSpace(w1) && AllSpace(w2) && IsStripped(r)
    ensures Strip(w1 + r + w2) == r
  {
    var s := w1 + r + w2;
    var i := LeadingSpace(s);
    if |r| == 0 {
      assert AllSpace(s) by {
        forall k | 0 <= k < |s| ensures IsSpace(s[k]) {
          if k < |w1| { assert s[k] == w1[k]; } else { assert s[k] == w2[k - |w1|]; }
        }
      }
      assert i == |s|;
    } else {
      assert s[|w1|] == r[0];
      assert forall k :: 0 <= k < |w1| ==> s[k] == w1[k];
      assert i == |w1|;
      var t := s[i..];
      assert t == r + w2;
      var j := TrailingSpace(t);
      assert t[|r| - 1] == r[|r| - 1];
      assert forall k :: |r| <= k < |t| ==> t[k] == w2[k - |r|];
      assert j == |w2|;
      assert t[..|t| - j] == r;
    }
  }

  lemma StripOfStripped(s: string)
    requires IsStripped(s)
    ensures Strip(s) == s
  {
    StripUnique("", s, "");
    assert "" + s + "" == s;
  }

  /** `strip()` ignores any whitespace added around its argument. */
  lemma StripSurrounded(w1: string, t: string, w2: string)
    requires AllSpace(w1) && AllSpace(w2)
    ensures Strip(w1 + t + w2) == Strip(t)
  {
    var r := Strip(t);
    var i := LeadingSpace(t);
    var a, b := t[..i], t[i + |r|..];
    assert t == a + r + b;
    Regroup(w1, a, r, b, w2);
    AllSpaceAppend(w1, a);
    AllSpaceAppend(b, w2);
    StripUnique(w1 + a, r, b + w2);
  }

  lemma Regroup(w1: string, a: string, r: string, b: string, w2: string)
    ensures w1 + (a + r + b) + w2 == (w1 + a) + r + (b + w2)
  {
  }

  lemma AllSpaceAppend(a: string, b: string)
    requires AllSpace(a) && AllSpace(b)
    ensures AllSpace(a + b)
  {
    forall k | 0 <= k < |a + b| ensures IsSpace((a + b)[k]) {
      if k < |a| { assert (a + b)[k] == a[k]; } else { assert (a + b)[k] == b[k - |a|]; }
    }
  }

  /** `strip()` yields the empty string exactly on all-whitespace input. */
  lemma StripEmptyIff(s: string)
    ensures Strip(s) == "" <==> AllSpace(s)
  {
    if AllSpace(s) {
      StripUnique(s, "", "");
      assert s + "" + "" == s;
    }
    var i := LeadingSpace(s);
    if Strip(s) == "" {
      assert s == s[..i] + s[i..];
    }
  }

  /** `strip()` changes its argument exactly when the argument is not
      stripped, and then it makes it strictly shorter. */
  lemma StripFixedIff(s: string)
    ensures Strip(s) == s <==> IsStripped(s)
    ensures !IsStripped(s) ==> |Strip(s)| < |s|
  {
    if IsStripped(s) {
      StripOfStripped(s);
    }
    var r := Strip(s);
    if |r| == |s| {
      assert LeadingSpace(s) == 0;
      assert r == s;
    }
  }

  /** Every character of `strip()`'s result comes from its argument. */
  lemma StripKeepsCharacters(s: string, c: char)
    ensures c in Strip(s) ==> c in s
  {
    var r := Strip(s);
    var i := LeadingSpace(s);
    if c in r {
      var k :| 0 <= k < |r| && r[k] == c;
      assert s[i + k] == c;
    }
  }

  /** Python's `s.replace(a, b)` for single characters `a` and `b`. */
  function ReplaceChar(s: string, a: char, b: char): (r: string)
    ensures |r| == |s|
    ensures forall i :: 0 <= i < |s| ==> r[i] == (if s[i] == a then b else s[i])
    decreases |s|
  {
    if |s| == 0 then "" else [if s[0] == a then b else s[0]] + ReplaceChar(s[1..], a, b)
  }

  lemma {:induction false} ReplaceCharAppend(x: string, y: string, a: char, b: char)
    ensures ReplaceChar(x + y, a, b) == ReplaceChar(x, a, b) + ReplaceChar(y, a, b)
  {
    var l, r := ReplaceChar(x + y, a, b), ReplaceChar(x, a, b) + ReplaceChar(y, a, b);
    assert forall i :: 0 <= i < |l| ==> l[i] == r[i];
  }

  /** Python's `s.replace(c, '')`. */
  function RemoveChar(s: string, c: char): (r: string)
    ensures c !in r
    ensures |r| <= |s|
    ensures c !in s ==> r == s
    decreases |s|
  {
    if |s| == 0 then "" else (if s[0] == c then "" else [s[0]]) + RemoveChar(s[1..], c)
  }

  /** Removing a character adds no new characters. */
  lemma {:induction false} RemoveCharKeeps(s: string, c: char, x: char)
    ensures x in RemoveChar(s, c) ==> x in s
    decreases |s|
  {
    if |s| > 0 && x != s[0] {
      RemoveCharKeeps(s[1..], c, x);
    }
  }

  lemma RemoveCharCons(x: char, rest: string, c: char)
    ensures RemoveChar([x] + rest, c) == (if x == c then "" else [x]) + RemoveChar(rest, c)
  {
    assert ([x] + rest)[1..] == rest;
  }

  lemma {:induction false} RemoveCharAppend(a: string, b: string, c: char)
    ensures RemoveChar(a + b, c) == RemoveChar(a, c) + RemoveChar(b, c)
    decreases |a|
  {
    if |a| == 0 {
      assert a + b == b;
    } else {
      var h := if a[0] == c then "" else [a[0]];
      assert a + b == [a[0]] + (a[1..] + b);
      assert a == [a[0]] + a[1..];
      RemoveCharCons(a[0], a[1..] + b, c);
      RemoveCharCons(a[0], a[1..], c);
      RemoveCharAppend(a[1..], b, c);
      Assoc(h, RemoveChar(a[1..], c), RemoveChar(b, c));
    }
  }

  lemma Assoc<T>(x: seq<T>, y: seq<T>, z: seq<T>)
    ensures x + (y + z) == (x + y) + z
  {
  }

  /** Python's `sep.join(parts)`. */
  function Join(parts: seq<string>, sep: string): string
    decreases |parts|
  {
    if |parts| == 0 then ""
    else if |parts| == 1 then parts[0]
    else parts[0] + sep + Join(parts[1..], sep)
  }

  /** Python's `s.split(sep)` for a one-character separator: never empty,
      and no piece contains the separator. */
  function Split(s: string, sep: char): (r: seq<string>)
    ensures |r| >= 1
    ensures forall k :: 0 <= k < |r| ==> sep !in r[k]
    decreases |s|
  {
    if |s| == 0 then [""]
    else
      var rest := Split(s[1..], sep);
      if s[0] == sep then [""] + rest
      else [[s[0]] + rest[0]] + rest[1..]
  }

  /** Joining the pieces of a split with the separator gives back the input. */
  lemma {:induction false} JoinSplit(s: string, sep: char)
    ensures Join(Split(s, sep), [sep]) == s
    decreases |s|
  {
    if |s| > 0 {
      var rest := Split(s[1..], sep);
      JoinSplit(s[1..], sep);
      if s[0] == sep {
        assert Split(s, sep) == [""] + rest;
        assert ([""] + rest)[1..] == rest;
        assert s == [sep] + s[1..];
      } else {
        var r := Split(s, sep);
        assert r == [[s[0]] + rest[0]] + rest[1..];
        if |rest| == 1 {
          assert s == [s[0]] + s[1..];
        } else {
          assert r[1..] == rest[1..];
          assert Join(rest, [sep]) == rest[0] + [sep] + Join(rest[1..], [sep]);
          assert s == [s[0]] + s[1..];
        }
      }
    }
  }

  /** One step of `split`: the first character either ends the first piece
      (when it is the separator) or joins it. */
  lemma SplitCons(c: char, rest: string, sep: char)
    ensures var r := Split(rest, sep);
      Split([c] + rest, sep) == if c == sep then [""] + r else [[c] + r[0]] + r[1..]
  {
    assert ([c] + rest)[1..] == rest;
  }

  /** Splitting distributes over a separator placed between two strings. */
  lemma {:induction false} SplitAround(a: string, b: string, sep: char)
    ensures Split(a + [sep] + b, sep) == Split(a, sep) + Split(b, sep)
    decreases |a|
  {
    if |a| == 0 {
      assert a + [sep] + b == [sep] + b;
      SplitCons(sep, b, sep);
    } else {
      SplitAround(a[1..], b, sep);
      SplitAroundStep(a, b, sep);
    }
  }

  lemma SplitAroundStep(a: string, b: string, sep: char)
    requires |a| > 0
    requires Split(a[1..] + [sep] + b, sep) == Split(a[1..], sep) + Split(b, sep)
    ensures Split(a + [sep] + b, sep) == Split(a, sep) + Split(b, sep)
  {
    var tail := a[1..] + [sep] + b;
    assert a + [sep] + b == [a[0]] + tail;
    assert a == [a[0]] + a[1..];
    SplitCons(a[0], tail, sep);
    SplitCons(a[0], a[1..], sep);
    if a[0] == sep {
      ConsAppend("", Split(a[1..], sep), Split(b, sep));
    } else {
      JoinFirstPiece([a[0]], Split(a[1..], sep), Split(b, sep));
    }
  }

  /** Prepending to the first piece commutes with appending more pieces. */
  lemma JoinFirstPiece(c: string, p: seq<string>, q: seq<string>)
    requires |p| >= 1
    ensures [c + (p + q)[0]] + (p + q)[1..] == ([c + p[0]] + p[1..]) + q
  {
    assert (p + q)[0] == p[0];
    assert (p + q)[1..] == p[1..] + q;
  }

  lemma ConsAppend(x: string, p: seq<string>, q: seq<string>)
    ensures [x] + (p + q) == ([x] + p) + q
  {
  }

  /** A string without the separator splits into itself alone. */
  lemma {:induction false} SplitWithoutSeparator(a: string, sep: char)
    requires sep !in a
    ensures Split(a, sep) == [a]
    decreases |a|
  {
    if |a| > 0 {
      SplitWithoutSeparator(a[1..], sep);
      assert [a[0]] + a[1..] == a;
    }
  }

  /** Splitting a join of separator-free pieces gives back the pieces. */
  lemma {:induction false} SplitJoin(parts: seq<string>, sep: char)
    requires |parts| >= 1
    requires forall k :: 0 <= k < |parts| ==> sep !in parts[k]
    ensures Split(Join(parts, [sep]), sep) == parts
    decreases |parts|
  {
    SplitWithoutSeparator(parts[0], sep);
    if |parts| > 1 {
      SplitJoin(parts[1..], sep);
      SplitAround(parts[0], Join(parts[1..], [sep]), sep);
      assert [parts[0]] + parts[1..] == parts;
    }
  }

  /** `t` occurs in `s` as a contiguous slice. */
  predicate Contains(s: string, t: string) {
    exists i :: 0 <= i <= |s| && t <= s[i..]
  }

  lemma ContainsAtFront(t: string, b: string)
    ensures Contains(t + b, t)
  {
    assert t <= (t + b)[0..];
  }

  lemma ContainsAfter(a: string, s: string, t: string)
    requires Contains(s, t)
    ensures Contains(a + s, t)
  {
    var i :| 0 <= i <= |s| && t <= s[i..];
    assert (a + s)[|a| + i..] == s[i..];
  }

  /** A slice of a slice is a slice. */
  lemma ContainsWithin(s: string, m: string, t: string)
    requires Contains(s, m) && Contains(m, t)
    ensures Contains(s, t)
  {
    var i :| 0 <= i <= |s| && m <= s[i..];
    var j :| 0 <= j <= |m| && t <= m[j..];
    assert s[i..][j..] == s[i + j..];
    assert t <= s[i + j..];
  }

  /** The pieces of a text, one after another. */
  function Concat(pieces: seq<string>): string
    decreases |pieces|
  {
    if |pieces| == 0 then "" else pieces[0] + Concat(pieces[1..])
  }

  /** Every piece of a concatenation occurs in it. */
  lemma {:induction false} ConcatContains(pieces: seq<string>, k: nat)
    requires k < |pieces|
    ensures Contains(Concat(pieces), pieces[k])
    decreases k
  {
    if k == 0 {
      ContainsAtFront(pieces[0], Concat(pieces[1..]));
    } else {
      ConcatContains(pieces[1..], k - 1);
      ContainsAfter(pieces[0], Concat(pieces[1..]), pieces[k]);
    }
  }

  /** Python's `s[:n]` for a non-negative `n`. */
  function Take(s: string, n: nat): (r: string)
    ensures |r| == if |s| <= n then |s| else n
    ensures r <= s
  {
    if |s| <= n then s else s[..n]
  }

  function LowerChar(c: char): char {
    if 'A' <= c <= 'Z' then (c as int + 32) as char else c
  }

  /** Python's `s.lower()` restricted to the ASCII letters. */
  function LowerAscii(s: string): (r: string)
    ensures |r| == |s|
    ensures forall i :: 0 <= i < |s| ==> r[i] == LowerChar(s[i])
    decreases |s|
  {
    if |s| == 0 then "" else [LowerChar(s[0])] + LowerAscii(s[1..])
  }

  function DigitChar(d: nat): char
    requires d < 10
  {
    ('0' as int + d) as char
  }

  function NatToString(n: nat): string
    decreases n
  {
    if n < 10 then [DigitChar(n)] else NatToString(n / 10) + [DigitChar(n % 10)]
  }

  /** Python's `str(n)` for an integer `n`. */
  function IntToString(n: int): string {
    if n < 0 then "-" + NatToString(-n) else NatToString(n)
  }
}

=== FILE: story.dfy ===
/**
 * Preparing the two text-generation requests of one story and turning their
 * responses into a (title, story) pair. The hosted model is not modelled:
 * each request's response is an input, `None` when the request failed.
 */
module StoryGen {
  import opened Wrappers
  import opened PyStr

  /** Token budget of the title request. */
  const TitleMaxTokens: int := 15
  /** Characters of the story quoted in the title request. */
  const ExcerptLength: nat := 500
  const FallbackTitle: string := "Untitled Story"
  const KeywordSeparator: string := ", "

  datatype Request = Request(prompt: string, maxTokens: int)

  /** The generator's result, title first. */
  datatype StoryPair = StoryPair(title: string, story: string)

  /** Why no pair came back: with no story text there is nothing to quote in
      the title request, and building it raises. */
  datatype TextError = NoStoryToExcerpt

  /** The requests issued and what came of them. */
  datatype StoryCall = StoryCall(storyRequest: Request, titleRequest: Option<Request>,
                                 result: Result<StoryPair, TextError>)

  /** Keeps the stripped pieces that are not blank. */
  function KeepNonBlank(pieces: seq<string>): (r: seq<string>)
    ensures forall k :: 0 <= k < |r| ==> r[k] != "" && IsStripped(r[k])
    ensures (forall k :: 0 <= k < |pieces| ==> ',' !in pieces[k]) ==> forall k :: 0 <= k < |r| ==> ',' !in r[k]
    ensures |r| <= |pieces|
    decreases |pieces|
  {
    if |pieces| == 0 then []
    else
      StripKeepsCharacters(pieces[0], ',');
      Kept(pieces[0]) + KeepNonBlank(pieces[1..])
  }

  /** One piece, stripped, or nothing when it is blank. */
  function Kept(piece: string): seq<string> {
    var t := Strip(piece);
    if t == "" then [] else [t]
  }

  lemma KeepNonBlankCons(x: string, rest: seq<string>)
    ensures KeepNonBlank([x] + rest) == Kept(x) + KeepNonBlank(rest)
  {
    assert ([x] + rest)[0] == x && ([x] + rest)[1..] == rest;
  }

  lemma {:induction false} KeepNonBlankAppend(a: seq<string>, b: seq<string>)
    ensures KeepNonBlank(a + b) == KeepNonBlank(a) + KeepNonBlank(b)
    decreases |a|
  {
    if |a| == 0 {
      assert a + b == b;
    } else {
      assert a == [a[0]] + a[1..];
      assert a + b == [a[0]] + (a[1..] + b);
      KeepNonBlankCons(a[0], a[1..] + b);
      KeepNonBlankCons(a[0], a[1..]);
      KeepNonBlankAppend(a[1..], b);
      var h := Kept(a[0]);
      Assoc(h, KeepNonBlank(a[1..]), KeepNonBlank(b));
    }
  }

  /** The keyword list: the comma-separated pieces, stripped, blanks dropped. */
  function ParseKeywords(keywords: string): (r: seq<string>)
    ensures forall k :: 0 <= k < |r| ==> r[k] != "" && IsStripped(r[k]) && ',' !in r[k]
  {
    KeepNonBlank(Split(keywords, ','))
  }

  /** The keyword list as it appears in the story request. */
  function FormatKeywords(keywords: seq<string>): string {
    Join(keywords, KeywordSeparator)
  }

  /** Parsing distributes over a comma, so every non-blank piece of the
      input contributes its keyword in input order. */
  lemma ParseKeywordsAround(a: string, b: string)
    ensures ParseKeywords(a + "," + b) == ParseKeywords(a) + ParseKeywords(b)
  {
    assert a + "," + b == a + [','] + b;
    SplitAround(a, b, ',');
    KeepNonBlankAppend(Split(a, ','), Split(b, ','));
  }

  /** A string without commas is one keyword, or none when it is blank. */
  lemma ParseSingleKeyword(a: string)
    requires ',' !in a
    ensures ParseKeywords(a) == if Strip(a) == "" then [] else [Strip(a)]
  {
    SplitWithoutSeparator(a, ',');
    assert [a][1..] == [];
  }

  /** A blank string is no keyword at all. */
  lemma ParseBlank(w: string)
    requires AllSpace(w)
    ensures ParseKeywords(w) == []
  {
    assert !IsSpace(',');
    assert ',' !in w;
    ParseSingleKeyword(w);
    StripEmptyIff(w);
  }

  /** One keyword behind whitespace parses to itself. */
  lemma ParseOneKeyword(w: string, keyword: string)
    requires AllSpace(w)
    requires keyword != "" && IsStripped(keyword) && ',' !in keyword
    ensures ParseKeywords(w + keyword) == [keyword]
  {
    assert !IsSpace(',');
    assert ',' !in w + keyword;
    ParseSingleKeyword(w + keyword);
    StripUnique(w, keyword, "");
    assert w + keyword + "" == w + keyword;
  }

  lemma FormatStep(w: string, keywords: seq<string>)
    requires |keywords| >= 2
    ensures w + FormatKeywords(keywords) == (w + keywords[0]) + "," + (" " + FormatKeywords(keywords[1..]))
  {
    var f := FormatKeywords(keywords[1..]);
    assert FormatKeywords(keywords) == keywords[0] + ", " + f;
    assert ", " + f == "," + (" " + f);
  }

  /** A list of non-blank, stripped, comma-free keywords survives formatting
      and parsing, even behind leading whitespace. */
  lemma {:induction false} ParseFormatted(w: string, keywords: seq<string>)
    requires AllSpace(w)
    requires forall k :: 0 <= k < |keywords| ==> keywords[k] != "" && IsStripped(keywords[k]) && ',' !in keywords[k]
    ensures ParseKeywords(w + FormatKeywords(keywords)) == keywords
    decreases |keywords|
  {
    if |keywords| == 0 {
      assert w + FormatKeywords(keywords) == w;
      ParseBlank(w);
    } else if |keywords| == 1 {
      ParseOneKeyword(w, keywords[0]);
    } else {
      FormatStep(w, keywords);
      ParseKeywordsAround(w + keywords[0], " " + FormatKeywords(keywords[1..]));
      ParseOneKeyword(w, keywords[0]);
      ParseFormatted(" ", keywords[1..]);
      assert [keywords[0]] + keywords[1..] == keywords;
    }
  }

  /** Re-parsing the formatted keyword list gives the same list. */
  lemma ParseFormatRoundTrip(keywords: string)
    ensures ParseKeywords(FormatKeywords(ParseKeywords(keywords))) == ParseKeywords(keywords)
  {
    ParseFormatted("", ParseKeywords(keywords));
    assert "" + FormatKeywords(ParseKeywords(keywords)) == FormatKeywords(ParseKeywords(keywords));
  }

  /** Blank pieces on both sides of a comma yield no keyword at all; `","`
      is the shortest such string. */
  lemma BlankPiecesParseEmpty(a: string, b: string)
    requires AllSpace(a) && AllSpace(b)
    ensures ParseKeywords(a + "," + b) == []
  {
    ParseKeywordsAround(a, b);
    ParseBlank(a);
    ParseBlank(b);
  }

  /** `int(length * 1.5)`: the integer part, rounded toward zero, of one and
      a half times the target word count. */
  function TokenBudget(length: int): (t: int)
    ensures length >= 0 ==> 0 <= t && 2 * t <= 3 * length < 2 * t + 2
    ensures length < 0 ==> t < 0 && 2 * t - 2 < 3 * length <= 2 * t
  {
    if length >= 0 then length + length / 2 else -((-length) + (-length) / 2)
  }

  lemma TokenBudgetsOfLengthChoices()
    ensures TokenBudget(200) == 300 && TokenBudget(500) == 750 && TokenBudget(700) == 1050
  {
  }

  /** The story text: absent for a failed request or an empty response,
      otherwise the stripped response. */
  function StoryText(response: Option<string>): (r: Option<string>)
    ensures r.None? <==> !Truthy(response)
    ensures r.Some? ==> r.value == Strip(response.value)
    ensures r.Some? ==> IsStripped(r.value) && |r.value| <= |response.value|
    ensures r.Some? ==> (r.value == "" <==> AllSpace(response.value))
  {
    StripEmptyIff(if response.Some? then response.value else "");
    if Truthy(response) then Some(Strip(response.value)) else None
  }

  /** The title: the stripped response when there is one, else the fallback. */
  function StoryTitle(response: Option<string>): (t: string)
    ensures IsStripped(t)
    ensures !Truthy(response) ==> t == FallbackTitle
    ensures Truthy(response) ==> t == Strip(response.value)
  {
    if Truthy(response) then Strip(response.value) else FallbackTitle
  }

  /** Python's `story[:500]`. */
  function Excerpt(story: string): (e: string)
    ensures |e| <= ExcerptLength && e <= story
    ensures |story| <= ExcerptLength ==> e == story
    ensures |story| > ExcerptLength ==> e == story[..ExcerptLength]
  {
    Take(story, ExcerptLength)
  }

  const StoryOpening: string := "Write a **complete "
  const StoryAfterGenre: string := " short story** in **approximately "
  const StoryAfterLength: string :=
    " words**. The story must have a **proper beginning, middle, and satisfying ending**. "
    + "Ensure the last sentence **completes the story logically** and does not get cut off. "
    + "\n\n**Story Details:**\n- **Main Topic:** "
  const StoryAfterTopic: string := "\n- **Main Character:** "
  const StoryAfterCharacter: string := "\n- **Genre:** "
  const StoryAfterGenreLine: string := " (Maintain appropriate tone, setting, and style)\n- **Keywords:** "
  const StoryAfterKeywords: string :=
    " (Integrate these naturally)\n\n\nCreate a story that is engaging, descriptive, and feels complete. "
    + "Use vivid descriptions and dialogue to bring the story to life. "
    + "Make the story emotionally resonant with a satisfying conclusion. "
    + "Carefully adhere to the "
  const StoryClosing: string := " genre conventions while being creative. The final sentence must provide closure to the story. "

  function StoryPromptPieces(genre: string, length: int, topic: string, character: string, keywords: string): seq<string> {
    [StoryOpening, genre, StoryAfterGenre, IntToString(length), StoryAfterLength, topic,
     StoryAfterTopic, character, StoryAfterCharacter, genre, StoryAfterGenreLine, keywords,
     StoryAfterKeywords, genre, StoryClosing]
  }

  /** The story request's prompt; `keywords` is the formatted keyword list. */
  function StoryPrompt(genre: string, length: int, topic: string, character: string, keywords: string): (p: string)
    ensures Contains(p, genre) && Contains(p, topic) && Contains(p, character) && Contains(p, keywords)
    ensures Contains(p, IntToString(length))
  {
    var pieces := StoryPromptPieces(genre, length, topic, character, keywords);
    ConcatContains(pieces, 1);
    ConcatContains(pieces, 3);
    ConcatContains(pieces, 5);
    ConcatContains(pieces, 7);
    ConcatContains(pieces, 11);
    Concat(pieces)
  }

  const TitleOpening: string :=
    "Create a short, catchy title (5-8 words) for the following story. "
    + "The title should be evocative, intriguing, and reflect the "
  const TitleAfterGenre: string := " genre. Return ONLY the title (no quotes, no extra text).\n\nStory:\n"
  const TitleClosing: string := "..."

  /** The title request's prompt, quoting at most the first 500 characters
      of the story. */
  function TitlePrompt(genre: string, story: string): (p: string)
    ensures Contains(p, genre) && Contains(p, Excerpt(story))
  {
    var pieces := [TitleOpening, genre, TitleAfterGenre, Excerpt(story), TitleClosing];
    ConcatContains(pieces, 1);
    ConcatContains(pieces, 3);
    Concat(pieces)
  }

  /** What the generator returns, which depends on the two responses only:
      no story text raises, otherwise the title comes with the stripped
      story. */
  function StoryOutcome(storyResponse: Option<string>, titleResponse: Option<string>): (r: Result<StoryPair, TextError>)
    ensures r.Failure? <==> !Truthy(storyResponse)
    ensures r.Success? ==> r.value.story == Strip(storyResponse.value) && r.value.title == StoryTitle(titleResponse)
  {
    match StoryText(storyResponse)
    case None => Failure(NoStoryToExcerpt)
    case Some(story) => Success(StoryPair(StoryTitle(titleResponse), story))
  }

  /** One run of the generator: the story request, then, only when story
      text came back, the title request. */
  function GenerateStory(genre: string, length: int, topic: string, character: string, keywords: string,
                         storyResponse: Option<string>, titleResponse: Option<string>): (r: StoryCall)
    ensures r.storyRequest.maxTokens == TokenBudget(length)
    ensures var p := r.storyRequest.prompt;
      Contains(p, genre) && Contains(p, topic) && Contains(p, character)
      && Contains(p, FormatKeywords(ParseKeywords(keywords)))
    ensures r.result == StoryOutcome(storyResponse, titleResponse)
    ensures r.result.Failure? ==> r.titleRequest.None?
    ensures r.result.Success? ==>
      && r.titleRequest.Some?
      && r.titleRequest.value.maxTokens == TitleMaxTokens
      && Contains(r.titleRequest.value.prompt, Excerpt(r.result.value.story))
      && r.result.value.story == Strip(storyResponse.value)
      && r.result.value.title == StoryTitle(titleResponse)
  {
    var formatted := FormatKeywords(ParseKeywords(keywords));
    var storyRequest := Request(StoryPrompt(genre, length, topic, character, formatted), TokenBudget(length));
    var result := StoryOutcome(storyResponse, titleResponse);
    if result.Failure? then StoryCall(storyRequest, None, result)
    else StoryCall(storyRequest, Some(Request(TitlePrompt(genre, result.value.story), TitleMaxTokens)), result)
  }
}

=== FILE: wrappers.dfy ===
/** Failure-carrying values shared by the modules of this model. */
module Wrappers {

  /** A value that may be missing; `None` plays the part of Python's `None`. */
  datatype Option<+T> = None | Some(value: T)

  /** Either a computed value or the reason the computation stopped. */
  datatype Result<+T, +E> = Success(value: T) | Failure(error: E)
}
